=== FILE: README.md ===
# GoldFinch / RWKV-6 time-mix bookkeeping in Dafny

This project models the integer and sequence logic in a research code base
that compares sequence-mixing architectures on associative-recall tasks.
Almost all of that code is floating-point tensor code. What can be
stated exactly, and is modelled here, is:

- **Token shift.** The RWKV-6 layer (`RWKV_Tmix_x060b2`) and the GoldFinch
  attention layer (`GPTAlpha_Tmix_goco`) build a "previous position"
  sequence in three ways: the carried shift (incoming shift state, then
  `x[t-1]`), the zero-padded `time_shift`, and `shift_cat`. Module
  `TokenShift` defines all three over a generic element type. It proves
  their index characterisation, that they agree with one another, and that
  they are chunk-consistent: shifting `a` and then `b` from the state `a`
  leaves behind equals shifting `a + b`. It also proves that the
  whole-sequence shift equals a step-by-step evaluation.
- **Layer constructors** (`TmixX060b2.Init`, `Goldfinch.Init`, module
  `Heads`). They cover the head count `d_model // 64` and its assertion,
  which divides by zero below 64 channels. They also cover the division by
  zero for fewer than two layers, the `time_faaaa` reshape, the zigzag
  factor and the value-LoRA width.
- **Layer `forward` bookkeeping.** This covers the shift deltas, the all-zero
  bonus `u`, the copy of the kernel state, the state handed to the next call,
  and the GoldFinch head width and causality flag.
- **The WKV-6 kernel contract** (`Wkv6`). It covers the dtype, head-size and
  contiguity assertions and the dtype dispatch. On the backward side it
  covers the float32-only assertion, the bonus-gradient reduction and the
  10-slot gradient tuple. Tensors are described by dtype, shape and
  contiguity. The CUDA kernel is a function parameter whose results are
  uninterpreted.
- **Model assembly** (`zoology/model.py`). This covers vocabulary padding,
  the choice between the two sequence mixers, and the block's argument
  defaults and k-cache pass-through. It also covers the backbone's loop:
  how hidden states, residual, k-cache and time-mix state go from block to
  block, and where the k-cache is rebuilt. It includes the position-id
  rule of the embeddings and the name rule of the rescaled initialisation.

Python exceptions are modelled as `Errors.Result` values (`Raise(e)`), in
the order the source raises them. Python's floor `//` and `%` are modelled
explicitly in `PyInt`, because Dafny's operators are Euclidean. A time row
is a `seq<real>` of channels. The batch axis is left implicit: every shift
and delta acts on each batch element independently.

The kernel boundary checks only dtypes, `C // H == 64` and contiguity.
It never compares the shapes of `r, k, v, w, u, s` with one another, and
the backbone passes a `(B, T, C)` zero tensor as the kernel state.

## Model

| member | source | states |
|---|---|---|
| `TokenShift.Shift` | zoology/mixers/tmix_x060b2.py:78 | The carried shift has the input's length. Element 0 is the incoming shift state and element `t >= 1` is `x[t-1]`. |
| `TokenShift.Carry` | zoology/mixers/tmix_x060b2.py:77 | The state left after a non-empty sequence is its last row `x[T-1]`. |
| `TokenShift.ZeroPadShift` | zoology/mixers/goldfinch.py:64 | `ZeroPad2d((0,0,1,-1))` keeps the length. Element 0 is zero and element `t >= 1` is `x[t-1]`. |
| `TokenShift.ShiftCat` | zoology/mixers/goldfinch.py:69-70 | `shift_cat` keeps the length. Element 0 is `x[0]` and element `t >= 1` is `x[t-1]`. |
| `TokenShift.ShiftStepwiseAgrees` | zoology/mixers/tmix_x060b2.py:77-78 | The whole-sequence carried shift equals step-by-step evaluation that emits the state and then adopts the current row. |
| `TokenShift.ShiftChunked` | zoology/mixers/tmix_x060b2.py:77-78 | Shifting `a` and then `b` from `a`'s carried state equals shifting `a + b`. The final states agree too. |
| `TokenShift.ZeroPadIsShiftFromZero` | zoology/mixers/goldfinch.py:64 | `time_shift` is the carried shift started from the zero state. |
| `TokenShift.ShiftCatIsShiftFromFirst` | zoology/mixers/goldfinch.py:69-70 | `shift_cat` is the carried shift started from `x[0]`. |
| `TokenShift.CarriedAndZeroPadDifferOnlyAtStart` | zoology/mixers/goldfinch.py:81-96 | The carried shift and `time_shift` agree at every position except 0, where they hold the carry and the zero respectively. |
| `TokenShift.ShiftDelta` | zoology/mixers/tmix_x060b2.py:78 | `dxprev[0][c] = state[c] - x[0][c]` and `dxprev[t][c] = x[t-1][c] - x[t][c]` for `t >= 1`, on every channel. |
| `TokenShift.ZeroPadDelta` | zoology/mixers/goldfinch.py:87 | `time_shift(x) - x` is `-x[0]` at position 0 and `x[t-1] - x[t]` after it. |
| `TokenShift.ShiftDeltaChunked` | zoology/mixers/tmix_x060b2.py:77-78 | The deltas of two consecutive chunks, with the state carried between them, concatenate to the delta of the whole sequence. |
| `Heads.HeadCountAsWritten` | zoology/mixers/tmix_x060b2.py:15-19 | A width below 64 raises `ZeroDivisionError`. Otherwise the check passes iff `dim_att % (dim_att // 64) == 0`, giving `n_head >= 1` with `64 * n_head <= dim_att < 64 * n_head + 64`. |
| `Heads.HeadCount` | zoology/mixers/tmix_x060b2.py:19 | The intended check passes iff `dim_att` is a multiple of 64, and then `n_head * 64 == dim_att`. |
| `Heads.MisalignedWidthPassesAssertion` | zoology/mixers/tmix_x060b2.py:18-19 | 130 channels pass the written assertion with 2 heads, although 130 is not a multiple of 64. The intended check rejects 130. |
| `Heads.AsWrittenAgreesOnAlignedWidths` | zoology/mixers/goldfinch.py:26-30 | On every positive multiple of 64 the written check and the intended check both give `n` heads. |
| `TmixX060b2.Zigzag` | zoology/mixers/tmix_x060b2.py:61 | The integer zigzag factor `(n+1) % 3 - 1` is 0, 1, -1 according to `n % 3`. |
| `TmixX060b2.ZigzagCycles` | zoology/mixers/tmix_x060b2.py:59-61 | The factor has period 3 and sums to zero over any three consecutive channels. |
| `TmixX060b2.Init` | zoology/mixers/tmix_x060b2.py:10-63 | Construction succeeds iff `d_model` is a positive multiple of 64 and `n_layer >= 2`. The written head check's exception is passed on unchanged (`ZeroDivisionError` below 64 channels, `AssertionError` when `d_model % (d_model // 64) != 0`). Once it passes, `n_layer < 2` raises `ZeroDivisionError`, and otherwise a width that is not a multiple of 64 raises `RuntimeError` from the `time_faaaa` reshape. On success `n_head * 64 == dim_att == d_model`. |
| `TmixX060b2.InitAcceptsIntendedWidths` | zoology/mixers/tmix_x060b2.py:18-63 | For positive widths and at least two layers, the constructor accepts exactly the widths the intended head-size check accepts, with the same head count. |
| `TmixX060b2.CallFor` | zoology/mixers/tmix_x060b2.py:101-107 | The kernel is called with `T, C, H` from the input, the incoming kernel state, and `u` = an `n_head x head_size` block of zeros. |
| `TmixX060b2.Forward` | zoology/mixers/tmix_x060b2.py:73-116 | An empty sequence raises `IndexError`, and a width mismatch raises `RuntimeError`. Otherwise the call succeeds iff the kernel does, and raises the kernel's exception. On success, `dxprev` is the carried-shift delta, the kernel got `CallFor`'s arguments, and the returned state is (kernel's state, `x[T-1]`). |
| `TmixX060b2.ForwardChunked` | zoology/mixers/tmix_x060b2.py:77-78 | When two `forward` calls on `a` then `b` (threading the returned state) and one call on `a + b` all get through the kernel, they see the same shift deltas and end with the same shift state. |
| `Goldfinch.ValueLoraWidth` | zoology/mixers/goldfinch.py:51 | `D_VALUE_LORA` is at least 64 and at least `d_model // 16`, and equals one of them. |
| `Goldfinch.ValueLoraWidthFloor` | zoology/mixers/goldfinch.py:51 | The width is exactly 64 iff `d_model < 1040`. From 1024 channels on it is `d_model // 16`. |
| `Goldfinch.Init` | zoology/mixers/goldfinch.py:17-55 | Construction succeeds iff the written head check passes and `n_layer >= 2`. A failing head check's exception is passed on unchanged (`ZeroDivisionError` below 64 channels). Once it passes, `n_layer < 2` raises `ZeroDivisionError`. A built layer has `n_head = d_model // 64 >= 1` heads dividing `d_model`, and its LoRA width is `max(d_model // 16, 64)`. |
| `Goldfinch.Forward` | zoology/mixers/goldfinch.py:74-133 | An empty `x` raises `IndexError`. The call succeeds iff the shift state and `xo` are `d_model` wide, `xo` is non-empty, and the k-cache has `xo`'s width and length; every other failure is `RuntimeError`. `x` gets the carried delta, while `xo` and the k-cache get the `time_shift` delta. The head width times `n_head` is `C`, and attention is causal iff `T > 1`. The returned state keeps `wkv_state` and sets the shift state to `x[T-1]`. |
| `Goldfinch.CarriedAndZeroPadDeltasAgree` | zoology/mixers/goldfinch.py:81-96 | The carried delta and the `time_shift` delta agree after position 0, and coincide when the incoming shift state is zero. |
| `Goldfinch.ForwardChunked` | zoology/mixers/goldfinch.py:80-81 | Chunked calls threading the returned state reproduce the carried delta `dxprev` and the returned state of one call on the concatenation. |
| `Goldfinch.MisalignedWidthGivesWideHeads` | zoology/mixers/goldfinch.py:26-77 | A 130-channel layer is built with 2 heads, and `forward` then uses heads 65 channels wide. |
| `Wkv6.Dispatch` | zoology/mixers/rwkv_goldfinch/cuda6.py:58-65 | bf16, fp16 and fp32 each select their own kernel entry. Every other dtype raises `ValueError`. |
| `Wkv6.CheckDTypes` | zoology/mixers/rwkv_goldfinch/cuda6.py:37-43 | The check passes iff `k, v, w, u, s` all have `r`'s dtype, and otherwise raises `AssertionError`. |
| `Wkv6.CheckHeadSizeAsWritten` | zoology/mixers/rwkv_goldfinch/cuda6.py:44 | `HEAD_SIZE == C // H` passes iff `H > 0` and `64H <= C < 64H + H`. `H == 0` raises `ZeroDivisionError`. |
| `Wkv6.CheckHeadSize` | zoology/mixers/rwkv_goldfinch/cuda6.py:44 | The intended check passes iff `C == 64 * H` with `H > 0`. |
| `Wkv6.Launch` | zoology/mixers/rwkv_goldfinch/cuda6.py:50-66 | It succeeds iff all six inputs are contiguous and the dtype is supported. Then `y` has shape `(B,T,C)`, the input dtype and is contiguous. The context saves `r,k,v,w,u`, and the values are the kernel's for the dispatched entry. |
| `Wkv6.Forward` | zoology/mixers/rwkv_goldfinch/cuda6.py:35-66 | `forward` succeeds iff the dtypes agree, `C // H == 64`, all inputs are contiguous and the dtype is supported. A dtype mismatch, a failed head-size check with `H > 0` and a non-contiguous input raise `AssertionError`; `H == 0` raises `ZeroDivisionError`; an unsupported dtype raises `ValueError`. On success the output `y` is a contiguous `(B,T,C)` tensor in the input dtype, the entry point is the one that dtype dispatches to, the context saves `B, T, C, H`, the dtype and `r, k, v, w, u`, and the values are the kernel's for that entry point. |
| `Wkv6.ForwardIntended` | zoology/mixers/rwkv_goldfinch/cuda6.py:35-66 | The corrected `forward` succeeds iff the dtypes agree, `C == 64H`, all inputs are contiguous and the dtype is supported. It raises `AssertionError` or, once every assertion holds, `ValueError`. On success it promises what `forward` does: a contiguous `(B,T,C)` output in the input dtype, the dispatched entry point, the saved context and the kernel's values. |
| `Wkv6.GuMatrix` | zoology/mixers/rwkv_goldfinch/cuda6.py:87-95 | The kernel's bonus gradient is a `B x C` matrix. |
| `Wkv6.Backward` | zoology/mixers/rwkv_goldfinch/cuda6.py:69-99 | `backward` succeeds iff the saved dtype is float32 and `H` divides `C`. Any other dtype raises `AssertionError`; with float32, `H == 0` raises `ZeroDivisionError` and an `H` that does not divide `C` raises `RuntimeError` from the `gu` reshape. It returns 10 slots, with gradients exactly in the `r, k, v, w, u` slots: four `(B,T,C)` float32 tensors and a `(H, C//H)` float32 `gu`. |
| `Wkv6.BackwardRunsFp32Only` | zoology/mixers/rwkv_goldfinch/cuda6.py:72-97 | A successful `backward` ran in float32 and dispatched to the fp32 entry. |
| `Wkv6.BackwardBonusIsBatchSum` | zoology/mixers/rwkv_goldfinch/cuda6.py:98 | `gu[h][j]` is the kernel's bonus gradient at channel `h*(C//H)+j`, summed over the batch. |
| `Wkv6.BackwardAfterForward` | zoology/mixers/rwkv_goldfinch/cuda6.py:44-98 | After a successful `forward`, `backward` succeeds iff the forward ran in float32 and `C == 64H`. |
| `Wkv6.ForwardAdmitsPartialHead` | zoology/mixers/rwkv_goldfinch/cuda6.py:44-98 | With `C = 129` and `H = 2`, `forward` succeeds and the matching `backward` raises `RuntimeError` in its `view`. |
| `Wkv6.IntendedForwardBackwardAgree` | zoology/mixers/rwkv_goldfinch/cuda6.py:44-98 | After the corrected `forward`, `backward` succeeds iff the dtype is float32. |
| `Tensors.Reshape` | zoology/mixers/rwkv_goldfinch/cuda6.py:98 | `view(rows, cols)` succeeds iff the element count is `rows * cols`, and then gives `rows` rows of `cols`. Otherwise it raises `RuntimeError`. |
| `Tensors.ReshapeIndex` | zoology/mixers/rwkv_goldfinch/cuda6.py:98 | Entry `(i, j)` of the view is flat element `i * cols + j` (row-major). |
| `Tensors.FlattenReshape` | zoology/mixers/tmix_x060b2.py:63 | Flattening a reshaped sequence returns the original. |
| `Tensors.SumAxis0` | zoology/mixers/rwkv_goldfinch/cuda6.py:98 | `torch.sum(m, 0)` has one entry per column, each the column's sum over the batch. |
| `Tensors.SumAxis0Append` | zoology/mixers/rwkv_goldfinch/cuda6.py:98 | The batch reduction over a batch split in two is the channel-wise sum of the two partial reductions. |
| `Tensors.Zeros` | zoology/mixers/tmix_x060b2.py:102 | `zeros(rows, cols)` has that shape and every entry is 0. |
| `TokenEmbeddings.Arange` | zoology/model.py:67-69 | The default position ids are `0 .. seqlen-1`. |
| `TokenEmbeddings.Lookup` | zoology/model.py:62-70 | A table lookup succeeds iff every id is in `[0, n)`, returning those ids, and raises `IndexError` otherwise. |
| `TokenEmbeddings.AddPositions` | zoology/model.py:71 | Adding the position rows succeeds iff the lengths are equal or one side has length 1. A length-1 side is broadcast, and any other mismatch raises `RuntimeError`. |
| `TokenEmbeddings.Forward` | zoology/model.py:56-72 | An out-of-range token raises `IndexError` before anything else. A position row is added iff `max_position_embeddings > 0`. With default ids, row `i` pairs token `i` with position `i`. Explicit ids are looked up first, so an out-of-range id raises `IndexError`; then the rows are combined as `AddPositions` states. With valid tokens and ids, the call succeeds iff the lengths are equal or one is 1, and otherwise raises `RuntimeError`. |
| `TokenEmbeddings.DefaultPositionsFit` | zoology/model.py:65-71 | With default ids and valid tokens, `forward` succeeds iff there is no position table or `seqlen <= max_position_embeddings`. |
| `InitWeights.ContainsIff` | zoology/model.py:90 | The substring test used on parameter names holds iff the pattern occurs at some position. |
| `InitWeights.TypeActions` | zoology/model.py:81-86 | Linear and Embedding weights get the base deviation, and a Linear bias is zeroed. |
| `InitWeights.ScaledParams` | zoology/model.py:88-99 | Exactly the parameters whose name contains `out_proj.weight`, `fc2.weight` or `output_linear.0.weight` get a residual-scaled normal init, and nothing else does. |
| `InitWeights.RescaleActions` | zoology/model.py:88-99 | With no layers the scaled deviation divides by zero as soon as a matching name exists. Otherwise the result is the scaled actions. |
| `InitWeights.InitPlan` | zoology/model.py:75-99 | The type-driven actions come first, and everything after them is a residual-scaled init; without rescaling the plan is exactly the type-driven actions. A name gets the scaled init iff rescaling is on and the name matches. |
| `TransformerBlock.CacheOnceLayer` | zoology/model.py:106 | The threshold is `n_layers` without `sequence_mixer2`, otherwise `(2*n_layers)//3`, and never exceeds `n_layers`. |
| `TransformerBlock.SelectMixer` | zoology/model.py:106-110 | Layer `i` uses `sequence_mixer` iff `i` is below the threshold, and `sequence_mixer2` from it on. Every layer index below `n_layers` succeeds. |
| `TransformerBlock.LayerMixers` | zoology/model.py:165-170 | The backbone builds one block per layer, each with `SelectMixer`'s choice. |
| `TransformerBlock.MixerLayout` | zoology/model.py:106-110 | Without `sequence_mixer2` every layer uses `sequence_mixer`. With it, the second mixer runs on a non-empty suffix of at least a third of the layers. |
| `TransformerBlock.Forward` | zoology/model.py:127-146 | A missing `xo`, k-cache or state defaults to the hidden states, zeros or the zero state. Building the zero state can raise, and then the block raises that. Otherwise the block succeeds iff its mixer does, raises the mixer's exception, and returns the k-cache unchanged. |
| `TransformerBlock.SuppliedArgumentsBypassDefaults` | zoology/model.py:127-134 | When `xo`, the k-cache and the state are all passed, as the backbone does, the result does not depend on the defaults, and the block fails only when its mixer does. |
| `Backbone.Forward` | zoology/model.py:179-204 | Given the hidden states of a successful embedding step: with no layers it raises `IndexError` at `self.layers[0]`. If building the zero state raises (an empty sequence), so does the loop, before any block runs. Otherwise layer 0 gets the embeddings, no residual, the zero cache and the zero state, and layer `i+1` gets layer `i`'s hidden states, residual and state. The loop stops at the first block that raises, with that block's exception. Layers `0..threshold` get the zero k-cache. Later layers get the cache rebuilt from layer `threshold`'s output, so without `sequence_mixer2` no rebuild happens. On success every block ran, and the last block's output is what the loop leaves. |
| `Backbone.FirstSecondMixerBlockIsThreshold` | zoology/model.py:106-110 | With `sequence_mixer2` and at least one layer, the threshold block is the first one built with `sequence_mixer2`. |
| `Backbone.ForwardIntended` | zoology/model.py:193-199 | With the rebuild moved before the threshold block, every `sequence_mixer2` block reads the rebuilt cache and earlier blocks the zero cache. The failure cases are those of `Backbone.Forward`. |
| `LanguageModel.PadVocab` | zoology/model.py:209-212 | A zero multiple raises. Otherwise the result is divisible by the multiple, an aligned size is unchanged, and for a positive multiple the size grows by less than the multiple. |
| `LanguageModel.PaddedIsMultiple` | zoology/model.py:209-212 | `vocab + m - vocab % m` is divisible by `m`, with Python's `%`. |
| `LanguageModel.PadVocabIsLeastMultiple` | zoology/model.py:209-212 | For a positive multiple the padded size is the least multiple that is not below the original. |

## Left out

- The WKV recurrence itself lives in CUDA sources that are not part of this model. Kernel compilation and loading (zoology/mixers/rwkv_goldfinch/cuda6.py:10-31) are foreign calls, so the kernel is an uninterpreted function parameter.
- Floating-point tensor math is not modelled: linear layers, LayerNorm, `rms_norm`, `tanh`, `exp`, the decay transform, scaled-dot-product attention, rotary embeddings, the `pow` initial values and `decay_speed`. The mixing `x + dxprev * maa` is not modelled either.
- Dropout, `StochasticDepth` and random initialisation are stochastic. `_init_weights` is modelled as which parameters get which distribution. The block's numerics are one abstract function.
- Setting the environment variables (goldfinch.py:25, cuda6.py:12-14) has process-global side effects. Only the resulting constant `HEAD_SIZE = 64` is modelled.
- `LanguageModel.forward`, `lm_head` and weight tying are a linear layer over floats.
- The `ln0` adjustment of `xo` (model.py:187-188) is float. The model takes `xo` as given.
- `TokenEmbeddings.project_in` is never used, because the backbone does not pass `word_embed_proj_dim`.
- TimeMixState's own file (zoology/mixers/rwkv_goldfinch/tmix.py) is not part of this model. Only its pair structure is used (module `TimeMix`).
- TmixX060b2.Forward: the batch axis is implicit and the projections `r, k, v, w` are not modelled. Only the kernel's sizes, bonus and state argument are recorded. Whether the kernel raises is left to the kernel parameter, because the dtypes of `r, k, v, w, u` that decide it in `Wkv6.Forward` come from float projections.
- Goldfinch.Forward: does not model torch broadcasting. An `xo` or k-cache of length or width 1, which torch would broadcast, is treated as a `RuntimeError` like any other mismatch. `xo` is taken as it is after `rms_norm`. The head reshapes of `q, k, v` are modelled only as the head width `C // H`.
- TmixX060b2.Init: `n_layer` is a natural number. A negative `n_layer` (which can make `0.0 ** negative` raise) is not modelled.
- Goldfinch.Init: `n_layer` is a natural number, as for `TmixX060b2.Init`.
- TokenEmbeddings.Forward: models one batch row. Broadcasting position ids across the batch axis is not modelled. Device placement is not modelled either: tables and ids are taken to live on one device, and the error classes are the CPU ones (`IndexError` for an out-of-range id). On CUDA an out-of-range id instead trips a device-side assert that surfaces as `RuntimeError`. The default position ids are created on `self.device`, which defaults to `'cuda'` (model.py:22, model.py:67-69), so an embedding built on the CPU without a device argument, as `LMBackbone` does (model.py:151-156), raises a device-mismatch `RuntimeError` where the model succeeds. This also applies to `TokenEmbeddings.Lookup` and `TokenEmbeddings.DefaultPositionsFit`.
- TokenEmbeddings.Lookup: raises the CPU `IndexError` for an out-of-range id; on CUDA the same input raises `RuntimeError` from a device-side assert.
- TokenEmbeddings.DefaultPositionsFit: assumes the default position ids land on the tables' device; with CPU tables and the default `device='cuda'` (model.py:22, model.py:67-69) the Python code raises `RuntimeError` where the model succeeds.
- Backbone.Forward: takes `embedded` as the output of a successful `TokenEmbeddings.Forward` (model.py:180-183). When the embedding step raises, the Python code raises before `self.layers[0]` is reached; that exception is `TokenEmbeddings.Forward`'s and is not repeated here. The final dropout, residual add and `ln_f` (model.py:201-204) are float operations. The method ends with the loop's last hidden states and residual. Tensors are abstract, so the empty-sequence `IndexError` of the zero state (model.py:191, and model.py:134 in the block) is a failure of the `zeroState` parameter. A block's failure is a failure of the `mix` parameter, which stands for the block's numerics and its sequence mixer (`TmixX060b2.Forward` or `Goldfinch.Forward`) but is not tied to them.
- Wkv6.Backward: only the bonus gradient's values are modelled. The other four gradients are described by dtype, shape and contiguity.

## Findings

| source | as written | input that shows it | evidently intended | confidence | as-written member | corrected member |
|---|---|---|---|---|---|---|
| zoology/model.py:193-199 | The k-cache is rebuilt after block `first_cache_once_layer_id` has run. | `n_layers = 3` with `sequence_mixer2`: the threshold is 2. Block 2 is the only `sequence_mixer2` block and receives the all-zero cache. The rebuilt cache is never read. | Rebuild before that block, so that every `sequence_mixer2` block reads the compressed cache. | medium, not executed | `Backbone.Forward` | `Backbone.ForwardIntended` |
| zoology/mixers/rwkv_goldfinch/cuda6.py:44 | `assert HEAD_SIZE == C // H` | `C = 129`, `H = 2`, float32: `forward` passes, then `backward` fails in `view(2, 64)` of 129 values. | `C == H * HEAD_SIZE` | medium, not executed | `Wkv6.ForwardAdmitsPartialHead` | `Wkv6.ForwardIntended` |
| zoology/mixers/tmix_x060b2.py:19 | `assert dim_att % n_head == 0` | `d_model = 130` passes with 2 heads, and GoldFinch then runs 65-wide heads. `d_model = 32` raises `ZeroDivisionError`. | `dim_att % head_size == 0` | medium, not executed | `Heads.MisalignedWidthPassesAssertion` | `Heads.HeadCount` |

In the first row, `Backbone.Forward` states that blocks up to and including
the threshold get the zero cache. `Backbone.FirstSecondMixerBlockIsThreshold`
states that the threshold block is the first `sequence_mixer2` block. The
mixer constructors keep the written assertion, as the source does. For
`RWKV_Tmix_x060b2` the later `time_faaaa` reshape rejects what the
assertion lets through, so `TmixX060b2.InitAcceptsIntendedWidths` shows
that the constructor as a whole accepts what `Heads.HeadCount` accepts.

=== FILE: backbone.dfy ===
/** `LMBackbone.forward`: how the layer loop threads hidden states, the
    residual, the k-cache and the time-mix state from block to block, and
    where it rebuilds the k-cache. The embeddings, the cache compression
    `rms_norm(w_k_cache_b(cat(xo, w_k_cache_a(h))))` and the final norm
    are abstract: `rebuild` stands for the cache computation. */
module Backbone {
  import opened Errors
  import TransformerBlock

  /** What block `i` is called with. */
  datatype Handoff<H, K, S> = Handoff(hidden: H, residual: Option<H>, kCache: K, state: S)

  /** What a successful layer loop leaves: the last block's hidden states
      and residual (fed to the final norm). */
  datatype Run<H> = Run(last: H, lastResidual: H)

  /** Block `i` run on what it was handed, with every argument supplied. */
  function LayerOut<H, K, S>(mix: (nat, H, Option<H>, H, K, S) -> Result<(H, H, S)>,
                             zeroCache: H -> K, zeroState: H -> Result<S>,
                             i: nat, xo: H, inp: Handoff<H, K, S>): Result<TransformerBlock.BlockOut<H, K, S>>
  {
    TransformerBlock.Forward((h, r, x, k, s) => mix(i, h, r, x, k, s), zeroCache, zeroState,
                             inp.hidden, inp.residual, Some(xo), Some(inp.kCache), Some(inp.state))
  }

  /** Block `i` succeeded, and block `i + 1` receives its output. */
  ghost predicate Threaded<H, K, S>(out: Result<TransformerBlock.BlockOut<H, K, S>>, next: Handoff<H, K, S>) {
    out.Ok? && next.hidden == out.value.hidden && next.residual == Some(out.value.residual)
    && next.state == out.value.state
  }

  /** The layer loop as written. Indexing `self.layers[0]` for the `ln0`
      probe raises `IndexError` when there are no layers; building the
      zero `TimeMixState` indexes `hidden_states[:, -1]` and raises on an
      empty sequence (`zeroState` fails); a block that raises stops the
      loop with its exception, and `inputs` records the blocks called so
      far. The k-cache starts all zero and is rebuilt right AFTER block
      `first_cache_once_layer_id` has run, from that block's hidden states;
      so that block and every earlier one get the zero cache and only later
      blocks get the rebuilt one. Without a second mixer the threshold is
      `n_layers` and no rebuild happens. */
  method Forward<H, K, S>(nLayers: nat, hasMixer2: bool, embedded: H, xo: H,
                          mix: (nat, H, Option<H>, H, K, S) -> Result<(H, H, S)>,
                          rebuild: (H, H) -> K, zeroCache: H -> K, zeroState: H -> Result<S>)
    returns (r: Result<Run<H>>, inputs: seq<Handoff<H, K, S>>)
    ensures nLayers == 0 ==> r == Raise(IndexError) && inputs == []
    ensures nLayers > 0 && zeroState(embedded).Raise? ==>
              r == Raise(zeroState(embedded).error) && inputs == []
    ensures |inputs| <= nLayers
    ensures |inputs| > 0 ==>
              && zeroState(embedded).Ok?
              && inputs[0] == Handoff(embedded, None, inputs[0].kCache, zeroState(embedded).value)
    ensures |inputs| > 0 ==> inputs[0].kCache == zeroCache(embedded)
    ensures forall i :: 0 <= i < |inputs| - 1 ==>
              Threaded(LayerOut(mix, zeroCache, zeroState, i, xo, inputs[i]), inputs[i + 1])
    ensures forall i :: 0 <= i < |inputs| && i <= TransformerBlock.CacheOnceLayer(nLayers, hasMixer2) ==>
              inputs[i].kCache == zeroCache(embedded)
    ensures forall i :: TransformerBlock.CacheOnceLayer(nLayers, hasMixer2) < i < |inputs| ==>
              var t := TransformerBlock.CacheOnceLayer(nLayers, hasMixer2);
              && LayerOut(mix, zeroCache, zeroState, t, xo, inputs[t]).Ok?
              && inputs[i].kCache == rebuild(
                   LayerOut(mix, zeroCache, zeroState, t, xo, inputs[t]).value.hidden, xo)
    ensures r.Ok? <==> nLayers > 0 && |inputs| == nLayers
                       && LayerOut(mix, zeroCache, zeroState, nLayers - 1, xo, inputs[nLayers - 1]).Ok?
    ensures r.Ok? ==>
              var out := LayerOut(mix, zeroCache, zeroState, nLayers - 1, xo, inputs[nLayers - 1]).value;
              r.value == Run(out.hidden, out.residual)
    ensures r.Raise? && nLayers > 0 && zeroState(embedded).Ok? ==>
              && |inputs| > 0
              && LayerOut(mix, zeroCache, zeroState, |inputs| - 1, xo, inputs[|inputs| - 1]).Raise?
              && r.error == LayerOut(mix, zeroCache, zeroState, |inputs| - 1, xo, inputs[|inputs| - 1]).error
  {
    inputs := [];
    if nLayers == 0 {
      return Raise(IndexError), inputs;
    }
    var start := zeroState(embedded);
    if start.Raise? {
      return Raise(start.error), inputs;
    }
    var threshold := TransformerBlock.CacheOnceLayer(nLayers, hasMixer2);
    var hidden, residual, kCache, state := embedded, None, zeroCache(embedded), start.value;
    var i := 0;
    while i < nLayers
      invariant 0 <= i <= nLayers
      invariant |inputs| == i
      invariant i == 0 ==> hidden == embedded && residual == None && state == start.value
      invariant i > 0 ==> inputs[0] == Handoff(embedded, None, inputs[0].kCache, start.value)
      invariant forall j :: 0 <= j < i - 1 ==>
                  Threaded(LayerOut(mix, zeroCache, zeroState, j, xo, inputs[j]), inputs[j + 1])
      invariant i > 0 ==>
                  var out := LayerOut(mix, zeroCache, zeroState, i - 1, xo, inputs[i - 1]);
                  out.Ok? && hidden == out.value.hidden && residual == Some(out.value.residual)
                  && state == out.value.state
      invariant forall j :: 0 <= j < i && j <= threshold ==> inputs[j].kCache == zeroCache(embedded)
      invariant i <= threshold ==> kCache == zeroCache(embedded)
      invariant threshold < i ==>
                  && LayerOut(mix, zeroCache, zeroState, threshold, xo, inputs[threshold]).Ok?
                  && kCache == rebuild(
                       LayerOut(mix, zeroCache, zeroState, threshold, xo, inputs[threshold]).value.hidden, xo)
      invariant forall j :: threshold < j < i ==>
                  && LayerOut(mix, zeroCache, zeroState, threshold, xo, inputs[threshold]).Ok?
                  && inputs[j].kCache == rebuild(
                       LayerOut(mix, zeroCache, zeroState, threshold, xo, inputs[threshold]).value.hidden, xo)
    {
      var inp := Handoff(hidden, residual, kCache, state);
      inputs := inputs + [inp];
      var res := TransformerBlock.Forward((h, r, x, k, s) => mix(i, h, r, x, k, s), zeroCache, zeroState,
                                          hidden, residual, Some(xo), Some(kCache), Some(state));
      assert res == LayerOut(mix, zeroCache, zeroState, i, xo, inp);
      if res.Raise? {
        return Raise(res.error), inputs;
      }
      hidden, residual := res.value.hidden, Some(res.value.residual);
      kCache, state := res.value.kCache, res.value.state;
      if i == threshold {
        kCache := rebuild(hidden, xo);
      }
      i := i + 1;
    }
    r := Ok(Run(hidden, residual.value));
  }

  /** The first block built with `sequence_mixer2` is block
      `first_cache_once_layer_id` itself, which the loop above still hands
      the all-zero k-cache. */
  lemma FirstSecondMixerBlockIsThreshold<M>(nLayers: nat, mixer: M, mixer2: M)
    requires nLayers >= 1
    ensures var t := TransformerBlock.CacheOnceLayer(nLayers, true);
            && t < nLayers
            && TransformerBlock.SelectMixer(t, nLayers, mixer, Some(mixer2)) == Ok(mixer2)
            && (t > 0 ==> TransformerBlock.SelectMixer(t - 1, nLayers, mixer, Some(mixer2)) == Ok(mixer))
  {
  }

  /** The loop with the rebuild moved BEFORE block `first_cache_once_layer_id`:
      every block built with `sequence_mixer2` then reads the rebuilt cache,
      computed from the last first-mixer block's output. The failure cases
      are those of the loop as written. */
  method ForwardIntended<H, K, S>(nLayers: nat, hasMixer2: bool, embedded: H, xo: H,
                          mix: (nat, H, Option<H>, H, K, S) -> Result<(H, H, S)>,
                          rebuild: (H, H) -> K, zeroCache: H -> K, zeroState: H -> Result<S>)
    returns (r: Result<Run<H>>, inputs: seq<Handoff<H, K, S>>)
    ensures nLayers == 0 ==> r == Raise(IndexError) && inputs == []
    ensures nLayers > 0 && zeroState(embedded).Raise? ==>
              r == Raise(zeroState(embedded).error) && inputs == []
    ensures |inputs| <= nLayers
    ensures |inputs| > 0 ==>
              && zeroState(embedded).Ok?
              && inputs[0] == Handoff(embedded, None, inputs[0].kCache, zeroState(embedded).value)
    ensures forall i :: 0 <= i < |inputs| - 1 ==>
              Threaded(LayerOut(mix, zeroCache, zeroState, i, xo, inputs[i]), inputs[i + 1])
    ensures forall i :: 0 <= i < |inputs| && i < TransformerBlock.CacheOnceLayer(nLayers, hasMixer2) ==>
              inputs[i].kCache == zeroCache(embedded)
    ensures forall i :: TransformerBlock.CacheOnceLayer(nLayers, hasMixer2) <= i < |inputs| ==>
              var t := TransformerBlock.CacheOnceLayer(nLayers, hasMixer2);
              inputs[i].kCache == rebuild(inputs[t].hidden, xo)
    ensures r.Ok? <==> nLayers > 0 && |inputs| == nLayers
                       && LayerOut(mix, zeroCache, zeroState, nLayers - 1, xo, inputs[nLayers - 1]).Ok?
    ensures r.Ok? ==>
              var out := LayerOut(mix, zeroCache, zeroState, nLayers - 1, xo, inputs[nLayers - 1]).value;
              r.value == Run(out.hidden, out.residual)
    ensures r.Raise? && nLayers > 0 && zeroState(embedded).Ok? ==>
              && |inputs| > 0
              && LayerOut(mix, zeroCache, zeroState, |inputs| - 1, xo, inputs[|inputs| - 1]).Raise?
              && r.error == LayerOut(mix, zeroCache, zeroState, |inputs| - 1, xo, inputs[|inputs| - 1]).error
  {
    inputs := [];
    if nLayers == 0 {
      return Raise(IndexError), inputs;
    }
    var start := zeroState(embedded);
    if start.Raise? {
      return Raise(start.error), inputs;
    }
    var threshold := TransformerBlock.CacheOnceLayer(nLayers, hasMixer2);
    var hidden, residual, kCache, state := embedded, None, zeroCache(embedded), start.value;
    var i := 0;
    while i < nLayers
      invariant 0 <= i <= nLayers
      invariant |inputs| == i
      invariant i == 0 ==> hidden == embedded && residual == None && state == start.value
      invariant i > 0 ==> inputs[0] == Handoff(embedded, None, inputs[0].kCache, start.value)
      invariant forall j :: 0 <= j < i - 1 ==>
                  Threaded(LayerOut(mix, zeroCache, zeroState, j, xo, inputs[j]), inputs[j + 1])
      invariant i > 0 ==>
                  var out := LayerOut(mix, zeroCache, zeroState, i - 1, xo, inputs[i - 1]);
                  out.Ok? && hidden == out.value.hidden && residual == Some(out.value.residual)
                  && state == out.value.state
      invariant forall j :: 0 <= j < i && j < threshold ==> inputs[j].kCache == zeroCache(embedded)
      invariant i <= threshold ==> kCache == zeroCache(embedded)
      invariant threshold < i ==> kCache == rebuild(inputs[threshold].hidden, xo)
      invariant forall j :: threshold <= j < i ==> inputs[j].kCache == rebuild(inputs[threshold].hidden, xo)
    {
      if i == threshold {
        kCache := rebuild(hidden, xo);
      }
      var inp := Handoff(hidden, residual, kCache, state);
      inputs := inputs + [inp];
      var res := TransformerBlock.Forward((h, r, x, k, s) => mix(i, h, r, x, k, s), zeroCache, zeroState,
                                          hidden, residual, Some(xo), Some(kCache), Some(state));
      assert res == LayerOut(mix, zeroCache, zeroState, i, xo, inp);
      if res.Raise? {
        return Raise(res.error), inputs;
      }
      hidden, residual := res.value.hidden, Some(res.value.residual);
      kCache, state := res.value.kCache, res.value.state;
      i := i + 1;
    }
    r := Ok(Run(hidden, residual.value));
  }
}

=== FILE: embeddings.dfy ===
/** `TokenEmbeddings`: which word-table and position-table rows each output
    position receives. The table contents and the addition are not
    modelled; an output row is described by the two lookups it sums. */
module TokenEmbeddings {
  import opened Errors

  /** `torch.arange(n)`. */
  function Arange(n: nat): (r: seq<int>)
    ensures |r| == n
    ensures forall i :: 0 <= i < n ==> r[i] == i
  {
    seq(n, i => i)
  }

  /** `nn.Embedding(n, d)(ids)`: an `IndexError` unless every id is a row of the table. */
  function Lookup(ids: seq<int>, n: int): (r: Result<seq<nat>>)
    ensures r.Ok? <==> forall i :: 0 <= i < |ids| ==> 0 <= ids[i] < n
    ensures r.Raise? ==> r.error == IndexError
    ensures r.Ok? ==> |r.value| == |ids| && forall i :: 0 <= i < |ids| ==> r.value[i] == ids[i]
  {
    if forall i :: 0 <= i < |ids| ==> 0 <= ids[i] < n
    then Ok(seq(|ids|, i requires 0 <= i < |ids| => ids[i] as nat))
    else Raise(IndexError)
  }

  /** One output row: word-table row `token`, plus position-table row
      `position` when the layer has position embeddings. */
  datatype Row = Row(token: nat, position: Option<nat>)

  /** `embeddings + position_embeddings` along the time axis: equal
      lengths add row by row, a length-1 side is broadcast against the
      other, and any other pair of lengths raises `RuntimeError`. */
  function AddPositions(tokens: seq<nat>, positions: seq<nat>): (r: Result<seq<Row>>)
    ensures r.Ok? <==> |tokens| == |positions| || |tokens| == 1 || |positions| == 1
    ensures r.Raise? ==> r.error == RuntimeError
    ensures r.Ok? ==> |r.value| == (if |tokens| == 1 then |positions| else |tokens|)
    ensures r.Ok? ==> forall i :: 0 <= i < |r.value| ==>
              r.value[i] == Row(tokens[if |tokens| == 1 then 0 else i],
                                Some(positions[if |positions| == 1 then 0 else i]))
  {
    if |tokens| == |positions| then
      Ok(seq(|tokens|, i requires 0 <= i < |tokens| => Row(tokens[i], Some(positions[i]))))
    else if |positions| == 1 then
      Ok(seq(|tokens|, i requires 0 <= i < |tokens| => Row(tokens[i], Some(positions[0]))))
    else if |tokens| == 1 then
      Ok(seq(|positions|, i requires 0 <= i < |positions| => Row(tokens[0], Some(positions[i]))))
    else
      Raise(RuntimeError)
  }

  /** `forward` on one batch row. The word lookup comes first; the position
      table exists only when `max_position_embeddings > 0`, the default
      position ids are `arange(seqlen)`, and the position lookup happens
      before the two are added. */
  function Forward(inputIds: seq<int>, vocabSize: int, maxPositions: int,
                   positionIds: Option<seq<int>>): (r: Result<seq<Row>>)
    ensures (exists i :: 0 <= i < |inputIds| && !(0 <= inputIds[i] < vocabSize)) ==> r == Raise(IndexError)
    ensures maxPositions <= 0 ==>
              (r.Ok? <==> forall i :: 0 <= i < |inputIds| ==> 0 <= inputIds[i] < vocabSize)
    ensures r.Ok? && (maxPositions <= 0 || positionIds.None?) ==>
              |r.value| == |inputIds| && forall i :: 0 <= i < |inputIds| ==> r.value[i].token == inputIds[i]
    ensures r.Ok? ==> forall i :: 0 <= i < |r.value| ==> (r.value[i].position.None? <==> maxPositions <= 0)
    ensures r.Ok? && positionIds.None? && maxPositions > 0 ==>
              forall i :: 0 <= i < |inputIds| ==> r.value[i].position == Some(i)
    ensures maxPositions > 0 && positionIds.Some? && (forall i :: 0 <= i < |inputIds| ==> 0 <= inputIds[i] < vocabSize)
            && (exists i :: 0 <= i < |positionIds.value| && !(0 <= positionIds.value[i] < maxPositions)) ==>
              r == Raise(IndexError)
    ensures maxPositions > 0 && positionIds.Some? && r.Ok? ==>
              var ids := positionIds.value;
              && (|inputIds| == |ids| || |inputIds| == 1 || |ids| == 1)
              && |r.value| == (if |inputIds| == 1 then |ids| else |inputIds|)
              && forall i :: 0 <= i < |r.value| ==>
                   r.value[i] == Row(inputIds[if |inputIds| == 1 then 0 else i] as nat,
                                     Some(ids[if |ids| == 1 then 0 else i] as nat))
    ensures maxPositions > 0 && positionIds.Some? && (forall i :: 0 <= i < |inputIds| ==> 0 <= inputIds[i] < vocabSize)
            && (forall i :: 0 <= i < |positionIds.value| ==> 0 <= positionIds.value[i] < maxPositions) ==>
              var ids := positionIds.value;
              && (r.Ok? <==> |inputIds| == |ids| || |inputIds| == 1 || |ids| == 1)
              && (r.Raise? ==> r.error == RuntimeError)
    ensures r.Raise? ==> r.error in {IndexError, RuntimeError}
  {
    var tokens :- Lookup(inputIds, vocabSize);
    if maxPositions <= 0 then
      Ok(seq(|tokens|, i requires 0 <= i < |tokens| => Row(tokens[i], None)))
    else
      var ids := positionIds.GetOr(Arange(|inputIds|));
      var positions :- Lookup(ids, maxPositions);
      AddPositions(tokens, positions)
  }

  /** With default position ids and valid tokens, `forward` succeeds
      exactly when the sequence fits in the position table (or there is
      no position table at all). */
  lemma DefaultPositionsFit(inputIds: seq<int>, vocabSize: int, maxPositions: int)
    requires forall i :: 0 <= i < |inputIds| ==> 0 <= inputIds[i] < vocabSize
    ensures Forward(inputIds, vocabSize, maxPositions, None).Ok?
        <==> maxPositions <= 0 || |inputIds| <= maxPositions
  {
    if maxPositions > 0 && |inputIds| > maxPositions {
      var ids := Arange(|inputIds|);
      assert !(0 <= ids[maxPositions] < maxPositions);
    }
  }
}

=== FILE: errors.dfy ===
/** The Python exceptions the modelled code can raise, and the result of an
    operation that either returns a value or raises one of them. */
module Errors {

  /** The exception classes reachable in the modelled code. `RuntimeError`
      stands for torch's shape errors (`view`, `reshape`, `cat`). */
  datatype Exception =
    | ZeroDivisionError
    | AssertionError
    | ValueError
    | IndexError
    | RuntimeError
    | AttributeError

  datatype Option<+T> = None | Some(value: T) {
    function GetOr(default: T): T {
      match this
      case Some(v) => v
      case None => default
    }
  }

  /** A value, or the exception the Python code raises instead. */
  datatype Result<+T> = Ok(value: T) | Raise(error: Exception) {
    predicate IsFailure() {
      Raise?
    }

    function PropagateFailure<U>(): Result<U>
      requires Raise?
    {
      Raise(error)
    }

    function Extract(): T
      requires Ok?
    {
      value
    }
  }

  /** The outcome of a Python `assert` (or any other check) that carries no value. */
  datatype Outcome = Pass | Fail(error: Exception) {
    predicate IsFailure() {
      Fail?
    }

    function PropagateFailure<U>(): Result<U>
      requires Fail?
    {
      Raise(error)
    }
  }

  /** Passes when `condition` holds and raises `error` otherwise. */
  function Need(condition: bool, error: Exception): (r: Outcome)
    ensures r.Pass? <==> condition
    ensures r.Fail? ==> r.error == error
  {
    if condition then Pass else Fail(error)
  }
}

=== FILE: goldfinch.dfy ===
/** `GPTAlpha_Tmix_goco`, the GoldFinch attention layer: the integer and
    shape logic of its constructor, its two token-shift operators, and the
    shift and state bookkeeping of its `forward`. The projections, norms,
    rotary embedding and attention are not modelled. */
module Goldfinch {
  import opened Errors
  import opened Tensors
  import opened TokenShift
  import opened TimeMix
  import Heads

  /** What the constructor fixes. `headWidth` is the width `forward`
      actually gives each head, `C // H`; `headSize` is the nominal 64. */
  datatype Dims = Dims(dModel: nat, dimAtt: nat, ctxLen: nat, headSize: nat, nHead: nat,
                       valueLora: nat, layerIdx: nat, nLayer: nat)
  {
    /** The invariant every constructed layer satisfies. */
    predicate Valid() {
      && nHead >= 1
      && dimAtt == dModel
      && dModel % nHead == 0
      && headSize == Heads.HEAD_SIZE
    }
  }

  /** `D_VALUE_LORA = max(d_model // 16, 64)`. */
  function ValueLoraWidth(dModel: nat): (w: nat)
    ensures w >= 64 && w >= dModel / 16
    ensures w == 64 || w == dModel / 16
  {
    if dModel / 16 > 64 then dModel / 16 else 64
  }

  /** The low-rank width stays at its floor of 64 exactly for models
      narrower than 1040 channels, and follows `d_model // 16` from 1024 on. */
  lemma ValueLoraWidthFloor(dModel: nat)
    ensures ValueLoraWidth(dModel) == 64 <==> dModel < 1040
    ensures dModel >= 1024 ==> ValueLoraWidth(dModel) == dModel / 16
  {
  }

  /** The constructor: `n_kv_head = n_head = dim_att // head_size` and its
      assertion, the layer ratios (division by zero for fewer than two
      layers) and the value LoRA width. Unlike `RWKV_Tmix_x060b2` nothing
      later reshapes by `head_size`, so a width the assertion lets through
      is accepted even when it is not a multiple of 64. */
  function Init(dModel: nat, lMax: nat, layerIdx: nat, nLayer: nat): (r: Result<Dims>)
    ensures dModel < Heads.HEAD_SIZE ==> r == Raise(ZeroDivisionError)
    ensures Heads.HeadCountAsWritten(dModel).Raise? ==> r == Raise(Heads.HeadCountAsWritten(dModel).error)
    ensures Heads.HeadCountAsWritten(dModel).Ok? && nLayer < 2 ==> r == Raise(ZeroDivisionError)
    ensures r.Ok? <==> Heads.HeadCountAsWritten(dModel).Ok? && nLayer >= 2
    ensures r.Ok? ==> r.value.Valid()
    ensures r.Ok? ==> r.value.nHead == dModel / Heads.HEAD_SIZE
    ensures r.Ok? ==> r.value.valueLora >= 64 && r.value.valueLora == ValueLoraWidth(dModel)
  {
    var nHead :- Heads.HeadCountAsWritten(dModel);
    :- Need(nLayer != 1, ZeroDivisionError);
    :- Need(nLayer != 0, ZeroDivisionError);
    Ok(Dims(dModel, dModel, lMax, Heads.HEAD_SIZE, nHead, ValueLoraWidth(dModel), layerIdx, nLayer))
  }

  /** One `forward` call: the three shift deltas, the per-head width and
      causality of the attention, and the state handed on. */
  datatype Step<W> = Step(dxprev: seq<Vec>, dxoPrev: seq<Vec>, dkPrev: seq<Vec>,
                          headWidth: nat, causal: bool, next: TimeMixState<W>)

  /** `forward` on one batch element: `x` uses the carried shift from the
      incoming state, while the normalised embeddings `xo` and the k-cache
      use the zero-padded `time_shift`; the value input is `xo` itself, so
      its delta is `dxoPrev`. `xo` is taken as it is after `rms_norm`.
      Indexing `x[:, -1]` raises on an empty sequence. The concatenation
      with the shift state, the mixing with the `C`-wide parameters and
      the sum `k + dkprev * (time_maa_k + mk)` raise `RuntimeError` unless
      widths and lengths line up, and the `view(B * T_xo, ...)` of the
      key/value mixing raises on an empty `xo`. Attention is causal for
      more than one step. The kernel state passes through untouched. */
  function Forward<W>(dims: Dims, x: seq<Vec>, xo: seq<Vec>, kCache: seq<Vec>, width: nat,
                      last: TimeMixState<W>): (r: Result<Step<W>>)
    requires dims.Valid()
    requires Rows(x, width)
    ensures |x| == 0 ==> r == Raise(IndexError)
    ensures r.Ok? <==> |x| > 0 && |last.shiftState| == width && width == dims.dModel
                       && Rows(xo, width) && |xo| > 0 && Rows(kCache, width) && |kCache| == |xo|
    ensures r.Raise? ==> r.error in {IndexError, RuntimeError}
    ensures |x| > 0 ==> r.Ok? || r == Raise(RuntimeError)
    ensures r.Ok? ==> r.value.dxprev == ShiftDelta(last.shiftState, x, width)
    ensures r.Ok? ==> r.value.dxoPrev == ZeroPadDelta(xo, width)
    ensures r.Ok? ==> r.value.dkPrev == ZeroPadDelta(kCache, width)
    ensures r.Ok? ==> r.value.headWidth * dims.nHead == width
    ensures r.Ok? ==> (r.value.causal <==> |x| > 1)
    ensures r.Ok? ==> r.value.next == TimeMixState(last.wkvState, x[|x| - 1])
  {
    if |x| == 0 then Raise(IndexError) else
    :- Need(|last.shiftState| == width, RuntimeError);
    :- Need(width == dims.dModel, RuntimeError);
    :- Need(Rows(xo, width), RuntimeError);
    :- Need(|xo| > 0, RuntimeError);
    :- Need(Rows(kCache, width) && |kCache| == |xo|, RuntimeError);
    var shiftState := x[|x| - 1];
    Ok(Step(ShiftDelta(last.shiftState, x, width), ZeroPadDelta(xo, width),
            ZeroPadDelta(kCache, width), width / dims.nHead, |x| > 1,
            TimeMixState(last.wkvState, shiftState)))
  }

  /** The delta of `x` (carried shift) and of an input run through
      `time_shift` agree after position 0; at position 0 the former uses
      the carried state and the latter zero. A zero incoming shift state
      makes them identical. */
  lemma CarriedAndZeroPadDeltasAgree(state: Vec, x: seq<Vec>, width: nat)
    requires |state| == width && Rows(x, width)
    ensures forall t :: 0 < t < |x| ==> ShiftDelta(state, x, width)[t] == ZeroPadDelta(x, width)[t]
    ensures (forall c :: 0 <= c < width ==> state[c] == 0.0) ==>
              ShiftDelta(state, x, width) == ZeroPadDelta(x, width)
  {
    var zero: Vec := seq(width, _ => 0.0);
    CarriedAndZeroPadDifferOnlyAtStart(state, zero, x);
    if forall c :: 0 <= c < width ==> state[c] == 0.0 {
      assert state == zero;
    }
  }

  /** Chunked processing keeps the carried delta `dxprev` and the returned
      state consistent: two calls on `a` then `b` see the `dxprev` rows and
      end with the state of one call on `a + b`. (The `time_shift` deltas
      of `xo` and the k-cache restart from zero at every call.) */
  lemma ForwardChunked<W>(dims: Dims, a: seq<Vec>, b: seq<Vec>, xo: seq<Vec>, kCache: seq<Vec>,
                          width: nat, last: TimeMixState<W>)
    requires dims.Valid()
    requires Rows(a, width) && Rows(b, width) && Rows(xo, width) && Rows(kCache, width)
    requires |a| > 0 && |b| > 0 && |last.shiftState| == width && width == dims.dModel
    requires |xo| > 0 && |kCache| == |xo|
    ensures Rows(a + b, width)
    ensures Forward(dims, a, xo, kCache, width, last).Ok?
    ensures Forward(dims, b, xo, kCache, width, Forward(dims, a, xo, kCache, width, last).value.next).Ok?
    ensures Forward(dims, a, xo, kCache, width, last).value.dxprev
          + Forward(dims, b, xo, kCache, width, Forward(dims, a, xo, kCache, width, last).value.next).value.dxprev
         == Forward(dims, a + b, xo, kCache, width, last).value.dxprev
    ensures Forward(dims, b, xo, kCache, width, Forward(dims, a, xo, kCache, width, last).value.next).value.next
         == Forward(dims, a + b, xo, kCache, width, last).value.next
  {
    ShiftDeltaChunked(last.shiftState, a, b, width);
    assert (a + b)[|a + b| - 1] == b[|b| - 1];
  }

  /** A 130-channel layer is constructed with two heads, and `forward`
      then splits the channels into heads of 65, not of the nominal 64. */
  lemma MisalignedWidthGivesWideHeads(x: seq<Vec>, last: TimeMixState<int>)
    requires Rows(x, 130) && |x| > 0 && |last.shiftState| == 130
    ensures Init(130, 512, 0, 12).Ok?
    ensures Init(130, 512, 0, 12).value.nHead == 2
    ensures Forward(Init(130, 512, 0, 12).value, x, x, x, 130, last).value.headWidth == 65
  {
    Heads.MisalignedWidthPassesAssertion();
  }
}

=== FILE: heads.dfy ===
/** Head-count derivation shared by both time-mix constructors:
    `n_head = dim_att // head_size` with `head_size = 64`, followed by
    `assert dim_att % n_head == 0`. */
module Heads {
  import opened Errors
  import PyInt

  const HEAD_SIZE: nat := 64

  /** The constructors' head count exactly as written: the assertion
      divides by `n_head`, so a width below 64 raises `ZeroDivisionError`,
      and it tests divisibility by the head COUNT, not the head size. */
  function HeadCountAsWritten(dimAtt: nat): (r: Result<nat>)
    ensures dimAtt < HEAD_SIZE <==> r == Raise(ZeroDivisionError)
    ensures r.Ok? <==> dimAtt >= HEAD_SIZE && dimAtt % (dimAtt / HEAD_SIZE) == 0
    ensures r.Ok? ==> r.value >= 1 && r.value * HEAD_SIZE <= dimAtt < r.value * HEAD_SIZE + HEAD_SIZE
    ensures r.Raise? ==> r.error in {ZeroDivisionError, AssertionError}
  {
    var nHead := dimAtt / HEAD_SIZE;
    var rem :- PyInt.Mod(dimAtt, nHead);
    :- Need(rem == 0, AssertionError);
    Ok(nHead)
  }

  /** The check as evidently intended, so that the heads tile the width:
      `assert dim_att % head_size == 0`. */
  function HeadCount(dimAtt: nat): (r: Result<nat>)
    ensures r.Ok? <==> dimAtt % HEAD_SIZE == 0
    ensures r.Ok? ==> r.value * HEAD_SIZE == dimAtt
    ensures r.Raise? ==> r.error == AssertionError
  {
    if dimAtt % HEAD_SIZE != 0 then Raise(AssertionError) else
    Ok(dimAtt / HEAD_SIZE)
  }

  /** A width of 130 passes the written assertion with two heads, although
      130 is not a multiple of the 64-wide head. */
  lemma MisalignedWidthPassesAssertion()
    ensures HeadCountAsWritten(130) == Ok(2)
    ensures 2 * HEAD_SIZE != 130
    ensures HeadCount(130).Raise?
  {
  }

  /** On a positive multiple of the head size the written check and the
      intended one agree. */
  lemma AsWrittenAgreesOnAlignedWidths(n: nat)
    requires n >= 1
    ensures HeadCountAsWritten(n * HEAD_SIZE) == HeadCount(n * HEAD_SIZE) == Ok(n)
  {
    var d := n * HEAD_SIZE;
    assert d / HEAD_SIZE == n;
    assert d % n == 0 by {
      assert d == n * HEAD_SIZE + 0;
      PyInt.MulModZero(n, HEAD_SIZE);
    }
  }
}

=== FILE: init_weights.dfy ===
/** `_init_weights`: which initialisation each parameter of a module gets.
    The random draws are not modelled, only which parameter gets which
    distribution. */
module InitWeights {
  import opened Errors

  /** Python's `p in s` on strings: `p` occurs in `s` as a contiguous piece. */
  function Contains(s: string, p: string): bool
    decreases |s|
  {
    if |p| > |s| then false
    else if s[..|p|] == p then true
    else Contains(s[1..], p)
  }

  ghost predicate OccursAt(s: string, p: string, i: nat) {
    i + |p| <= |s| && s[i..i + |p|] == p
  }

  /** `Contains` finds exactly the occurrences: the recursive scan agrees
      with the positional definition of a substring. */
  lemma {:induction false} ContainsIff(s: string, p: string)
    ensures Contains(s, p) <==> exists i: nat :: OccursAt(s, p, i)
    decreases |s|
  {
    if |p| > |s| {
    } else if s[..|p|] == p {
      assert OccursAt(s, p, 0);
    } else {
      ContainsIff(s[1..], p);
      if exists i: nat :: OccursAt(s[1..], p, i) {
        var i: nat :| OccursAt(s[1..], p, i);
        assert s[i + 1..i + 1 + |p|] == s[1..][i..i + |p|];
        assert OccursAt(s, p, i + 1);
      }
      if exists i: nat :: OccursAt(s, p, i) {
        var i: nat :| OccursAt(s, p, i);
        assert i != 0;
        assert s[1..][i - 1..i - 1 + |p|] == s[i..i + |p|];
        assert OccursAt(s[1..], p, i - 1);
      }
    }
  }

  /** The parameters that get the residual-scaled initialisation. */
  predicate IsResidualOutput(name: string) {
    Contains(name, "out_proj.weight") || Contains(name, "fc2.weight")
    || Contains(name, "output_linear.0.weight")
  }

  datatype ModuleKind = Linear(hasBias: bool) | Embedding | OtherModule

  /** `initializer_range`, or `initializer_range / sqrt(2 * n_layers)`. */
  datatype Std = Base | ResidualScaled

  /** One initialisation step on a parameter (named relative to the module). */
  datatype Action = Normal(param: string, std: Std) | Zeros(param: string)

  /** The initialisations driven by the module's type: a Linear or
      Embedding weight is drawn with the base deviation, a Linear bias (if
      any) is zeroed, and other modules are left alone. */
  function TypeActions(kind: ModuleKind): (acts: seq<Action>)
    ensures kind.OtherModule? <==> acts == []
    ensures !kind.OtherModule? ==> acts[0] == Normal("weight", Base)
    ensures Zeros("bias") in acts <==> kind.Linear? && kind.hasBias
    ensures forall a :: a in acts ==> a == Normal("weight", Base) || a == Zeros("bias")
    ensures |acts| <= 2
  {
    match kind
    case Linear(hasBias) => [Normal("weight", Base)] + (if hasBias then [Zeros("bias")] else [])
    case Embedding => [Normal("weight", Base)]
    case OtherModule => []
  }

  /** The scaled re-initialisations the loop over `named_parameters()`
      performs, in parameter order. */
  function ScaledParams(names: seq<string>): (acts: seq<Action>)
    ensures forall a :: a in acts ==> a.Normal? && a.std == ResidualScaled
    ensures forall n :: Normal(n, ResidualScaled) in acts <==> n in names && IsResidualOutput(n)
  {
    if |names| == 0 then []
    else if IsResidualOutput(names[0]) then [Normal(names[0], ResidualScaled)] + ScaledParams(names[1..])
    else ScaledParams(names[1..])
  }

  /** The rescaling loop. The scaled deviation divides by
      `sqrt(2 * n_layers)`, which raises `ZeroDivisionError` at the first
      matching parameter when there are no layers. */
  function RescaleActions(names: seq<string>, nLayers: nat): (r: Result<seq<Action>>)
    ensures r.Ok? <==> nLayers > 0 || forall i :: 0 <= i < |names| ==> !IsResidualOutput(names[i])
    ensures r.Raise? ==> r.error == ZeroDivisionError
    ensures r.Ok? ==> r.value == ScaledParams(names)
  {
    if nLayers == 0 && exists i :: 0 <= i < |names| && IsResidualOutput(names[i])
    then Raise(ZeroDivisionError)
    else Ok(ScaledParams(names))
  }

  /** `_init_weights(module, n_layers, rescale_prenorm_residual=rescale)`:
      the type-driven initialisation, then, when rescaling, the scaled
      re-initialisation of exactly the residual output projections. */
  function InitPlan(kind: ModuleKind, names: seq<string>, nLayers: nat, rescale: bool): (r: Result<seq<Action>>)
    ensures r.Ok? <==> !rescale || nLayers > 0 || forall i :: 0 <= i < |names| ==> !IsResidualOutput(names[i])
    ensures r.Ok? ==> forall n :: Normal(n, ResidualScaled) in r.value <==> rescale && n in names && IsResidualOutput(n)
    ensures r.Ok? ==> |TypeActions(kind)| <= |r.value| && r.value[..|TypeActions(kind)|] == TypeActions(kind)
    ensures r.Ok? ==> forall a :: a in r.value[|TypeActions(kind)|..] ==> a.Normal? && a.std == ResidualScaled
    ensures r.Ok? && !rescale ==> r.value == TypeActions(kind)
  {
    if rescale then
      var scaled :- RescaleActions(names, nLayers);
      Ok(TypeActions(kind) + scaled)
    else
      Ok(TypeActions(kind))
  }
}

=== FILE: language_model.dfy ===
/** `LanguageModel.__init__`: rounding the vocabulary up to a multiple of
    `pad_vocab_size_multiple` before the tables are built. */
module LanguageModel {
  import opened Errors
  import PyInt

  /** `if vocab % m != 0: vocab += m - vocab % m`, with Python's `%` (a zero
      multiple raises `ZeroDivisionError`; a negative one rounds down). */
  function PadVocab(vocabSize: int, multiple: int): (r: Result<int>)
    ensures r.Raise? <==> multiple == 0
    ensures r.Raise? ==> r.error == ZeroDivisionError
    ensures r.Ok? ==> PyInt.Mod(r.value, multiple) == Ok(0)
    ensures r.Ok? && multiple > 0 ==> vocabSize <= r.value < vocabSize + multiple
    ensures r.Ok? && multiple < 0 ==> vocabSize + multiple < r.value <= vocabSize
    ensures r.Ok? && PyInt.Mod(vocabSize, multiple) == Ok(0) ==> r.value == vocabSize
  {
    var rem :- PyInt.Mod(vocabSize, multiple);
    if rem != 0 then
      PaddedIsMultiple(vocabSize, multiple);
      Ok(vocabSize + multiple - rem)
    else Ok(vocabSize)
  }

  /** `vocab + m - vocab % m` is a multiple of `m`. */
  lemma PaddedIsMultiple(vocabSize: int, multiple: int)
    requires multiple != 0
    ensures PyInt.Mod(vocabSize + multiple - PyInt.Mod(vocabSize, multiple).value, multiple) == Ok(0)
  {
    var q := PyInt.FloorDiv(vocabSize, multiple).value;
    PyInt.DivModRecombine(vocabSize, multiple);
    var padded := vocabSize + multiple - PyInt.Mod(vocabSize, multiple).value;
    assert padded == multiple * (q + 1);
    MultipleModZero(multiple, q + 1);
  }

  /** Python's `(m * k) % m` is zero. */
  lemma MultipleModZero(m: int, k: int)
    requires m != 0
    ensures PyInt.Mod(m * k, m) == Ok(0)
  {
    if m > 0 {
      PyInt.DivModUnique(m * k, m, k, 0);
    } else {
      PyInt.DivModUnique(m * k, -m, -k, 0);
      assert (m * k) % m == (m * k) % (-m);
    }
  }

  /** For a positive multiple the padded size is the SMALLEST multiple not
      below the original size. */
  lemma PadVocabIsLeastMultiple(vocabSize: int, multiple: int, k: int)
    requires multiple > 0 && k >= vocabSize && PyInt.Mod(k, multiple) == Ok(0)
    ensures PadVocab(vocabSize, multiple).value <= k
  {
    var r := PadVocab(vocabSize, multiple).value;
    if r > k {
      PyInt.DivModRecombine(k, multiple);
      PyInt.DivModRecombine(vocabSize, multiple);
      var qk := PyInt.FloorDiv(k, multiple).value;
      var qv := PyInt.FloorDiv(vocabSize, multiple).value;
      assert k == multiple * qk;
      assert r == multiple * (qv + 1);
      assert multiple * qv < vocabSize <= k;
      PyInt.MulSign(multiple, qk - qv);
      PyInt.MulSign(multiple, qv + 1 - qk);
    }
  }
}

=== FILE: pyint.dfy ===
/** Python's integer `//` and `%`. Both round toward negative infinity and
    raise `ZeroDivisionError` on a zero divisor; Dafny's own `/` and `%` are
    Euclidean, so the two differ for a negative divisor. */
module PyInt {
  import opened Errors

  /** `a // b`. */
  function FloorDiv(a: int, b: int): (r: Result<int>)
    ensures r.Raise? <==> b == 0
    ensures r.Raise? ==> r.error == ZeroDivisionError
    ensures r.Ok? && b > 0 ==> b * r.value <= a < b * r.value + b
    ensures r.Ok? && b < 0 ==> b * r.value + b < a <= b * r.value
  {
    if b == 0 then Raise(ZeroDivisionError)
    else if b > 0 || a % b == 0 then Ok(a / b)
    else Ok(a / b - 1)
  }

  /** `a % b`: the remainder takes the sign of the divisor. */
  function Mod(a: int, b: int): (r: Result<int>)
    ensures r.Raise? <==> b == 0
    ensures r.Raise? ==> r.error == ZeroDivisionError
    ensures r.Ok? && b > 0 ==> 0 <= r.value < b
    ensures r.Ok? && b < 0 ==> b < r.value <= 0
  {
    if b == 0 then Raise(ZeroDivisionError)
    else if b > 0 || a % b == 0 then Ok(a % b)
    else Ok(a % b + b)
  }

  /** `a // b` and `a % b` recombine to `a`, as Python guarantees. */
  lemma DivModRecombine(a: int, b: int)
    requires b != 0
    ensures b * FloorDiv(a, b).value + Mod(a, b).value == a
  {
    if b < 0 && a % b != 0 {
      assert b * (a / b - 1) + (a % b + b) == b * (a / b) + a % b;
    }
  }

  /** Dafny's `/` and `%` are determined by `a == b * q + r` with `0 <= r < b`. */
  lemma DivModUnique(a: int, b: int, q: int, r: int)
    requires b > 0 && a == b * q + r && 0 <= r < b
    ensures a / b == q && a % b == r
  {
    var q', r' := a / b, a % b;
    assert b * (q - q') == r' - r;
    MulSign(b, q - q');
  }

  /** A multiple of `n` leaves no remainder. */
  lemma MulModZero(n: nat, k: nat)
    requires n >= 1
    ensures (n * k) % n == 0
  {
    DivModUnique(n * k, n, k, 0);
  }

  lemma MulSign(n: int, x: int)
    requires n >= 1
    ensures x >= 1 ==> n * x >= n
    ensures x <= -1 ==> n * x <= 0 - n
  {
  }
}

=== FILE: tensors.dfy ===
/** Value-level tensors: a time row is a vector of channel values, a
    matrix is a sequence of rows. Only the tensor operations the modelled
    code relies on for shapes and bookkeeping appear here. */
module Tensors {
  import opened Errors

  type Vec = seq<real>

  /** Every row has `width` entries: what a 2-d tensor guarantees by construction. */
  predicate Rows<T>(m: seq<seq<T>>, width: nat) {
    forall i :: 0 <= i < |m| ==> |m[i]| == width
  }

  /** `torch.zeros(rows, cols)`. */
  function Zeros(rows: nat, cols: nat): (z: seq<Vec>)
    ensures |z| == rows && Rows(z, cols)
    ensures forall i, j :: 0 <= i < rows && 0 <= j < cols ==> z[i][j] == 0.0
  {
    seq(rows, _ => seq(cols, _ => 0.0))
  }

  /** Element-wise `a - b` of two rows of equal width. */
  function Sub(a: Vec, b: Vec): (d: Vec)
    requires |a| == |b|
    ensures |d| == |a|
    ensures forall c :: 0 <= c < |a| ==> d[c] + b[c] == a[c]
  {
    seq(|a|, c requires 0 <= c < |a| => a[c] - b[c])
  }

  /** Row-major concatenation of the rows: `m.flatten()`. */
  function Flatten<T>(m: seq<seq<T>>): seq<T>
  {
    if |m| == 0 then [] else m[0] + Flatten(m[1..])
  }

  /** Cuts `rows * cols` elements into `rows` consecutive rows of `cols`. */
  function Split<T>(flat: seq<T>, rows: nat, cols: nat): (m: seq<seq<T>>)
    requires |flat| == rows * cols
    ensures |m| == rows && Rows(m, cols)
    decreases rows
  {
    if rows == 0 then []
    else
      assert |flat[cols..]| == (rows - 1) * cols by {
        assert (rows - 1) * cols == rows * cols - cols;
      }
      [flat[..cols]] + Split(flat[cols..], rows - 1, cols)
  }

  /** `flat.view(rows, cols)` (equivalently `reshape`): a `RuntimeError`
      unless the element count is exactly `rows * cols`. */
  function Reshape<T>(flat: seq<T>, rows: nat, cols: nat): (r: Result<seq<seq<T>>>)
    ensures r.Ok? <==> |flat| == rows * cols
    ensures r.Raise? ==> r.error == RuntimeError
    ensures r.Ok? ==> |r.value| == rows && Rows(r.value, cols)
  {
    if |flat| != rows * cols then Raise(RuntimeError) else Ok(Split(flat, rows, cols))
  }

  /** Entry `(i, j)` of the reshaped matrix is element `i * cols + j` of the
      flat sequence: the row-major layout `view` promises. */
  lemma ReshapeIndex<T>(flat: seq<T>, rows: nat, cols: nat, i: nat, j: nat)
    requires |flat| == rows * cols
    requires i < rows && j < cols
    ensures i * cols + j < |flat|
    ensures Reshape(flat, rows, cols).value[i][j] == flat[i * cols + j]
  {
    SplitIndex(flat, rows, cols, i, j);
  }

  lemma {:induction false} SplitIndex<T>(flat: seq<T>, rows: nat, cols: nat, i: nat, j: nat)
    requires |flat| == rows * cols
    requires i < rows && j < cols
    ensures i * cols + j < |flat|
    ensures Split(flat, rows, cols)[i][j] == flat[i * cols + j]
    decreases rows
  {
    MulSucc(rows - 1, cols);
    var rest := flat[cols..];
    var m := Split(flat, rows, cols);
    assert m == [flat[..cols]] + Split(rest, rows - 1, cols);
    if i > 0 {
      MulSucc(i - 1, cols);
      SplitIndex(rest, rows - 1, cols, i - 1, j);
      assert m[i] == Split(rest, rows - 1, cols)[i - 1];
    }
  }

  /** `(a + 1) * c == a * c + c`, kept apart so that the sequence proofs see no products. */
  lemma MulSucc(a: nat, c: nat)
    ensures (a + 1) * c == a * c + c
  {
  }

  /** Reshaping and then flattening gives back the original elements. */
  lemma {:induction false} FlattenReshape<T>(flat: seq<T>, rows: nat, cols: nat)
    requires |flat| == rows * cols
    ensures Flatten(Reshape(flat, rows, cols).value) == flat
    decreases rows
  {
    assert (rows - 1) * cols == rows * cols - cols;
    if rows == 0 {
    } else {
      FlattenReshape(flat[cols..], rows - 1, cols);
      assert flat == flat[..cols] + flat[cols..];
    }
  }

  /** The sum of column `c` over all rows. */
  function ColumnSum(m: seq<Vec>, c: nat): real
    requires forall i :: 0 <= i < |m| ==> c < |m[i]|
  {
    if |m| == 0 then 0.0 else m[0][c] + ColumnSum(m[1..], c)
  }

  /** `torch.sum(m, 0)`: the sum over the leading (batch) axis. */
  function SumAxis0(m: seq<Vec>, width: nat): (s: Vec)
    requires Rows(m, width)
    ensures |s| == width
    ensures forall c :: 0 <= c < width ==> s[c] == ColumnSum(m, c)
  {
    seq(width, c requires 0 <= c < width => ColumnSum(m, c))
  }

  /** One column sum distributes over splitting the batch. */
  lemma {:induction false} ColumnSumAppend(a: seq<Vec>, b: seq<Vec>, c: nat)
    requires forall i :: 0 <= i < |a| ==> c < |a[i]|
    requires forall i :: 0 <= i < |b| ==> c < |b[i]|
    ensures ColumnSum(a + b, c) == ColumnSum(a, c) + ColumnSum(b, c)
    decreases |a|
  {
    if |a| == 0 {
      assert a + b == b;
    } else {
      assert (a + b)[1..] == a[1..] + b;
      ColumnSumAppend(a[1..], b, c);
    }
  }

  /** `torch.sum(m, 0)` over a batch split in two is the channel-wise sum
      of the two partial reductions. */
  lemma SumAxis0Append(a: seq<Vec>, b: seq<Vec>, width: nat)
    requires Rows(a, width) && Rows(b, width)
    ensures Rows(a + b, width)
    ensures forall c :: 0 <= c < width ==>
              SumAxis0(a + b, width)[c] == SumAxis0(a, width)[c] + SumAxis0(b, width)[c]
  {
    forall c | 0 <= c < width
      ensures SumAxis0(a + b, width)[c] == SumAxis0(a, width)[c] + SumAxis0(b, width)[c]
    {
      ColumnSumAppend(a, b, c);
    }
  }
}

=== FILE: time_mix_state.dfy ===
/** The recurrent state a time-mix layer hands to the next call on the
    same sequence. Its defining file, zoology/mixers/rwkv_goldfinch/tmix.py,
    is not part of this model; only the pair structure the layers use is. */
module TimeMix {
  import opened Tensors

  /** The kernel state (what the WKV kernel leaves in its state buffer) and
      the shift state (the last input row, for the next token shift). */
  datatype TimeMixState<W> = TimeMixState(wkvState: W, shiftState: Vec)
}

=== FILE: tmix_x060b2.dfy ===
/** `RWKV_Tmix_x060b2`: the integer and shape logic of its constructor and
    the token-shift, bonus and state bookkeeping of its `forward`. The
    floating-point mixing and the projections are not modelled; the CUDA
    kernel is a parameter. */
module TmixX060b2 {
  import opened Errors
  import opened Tensors
  import opened TokenShift
  import opened TimeMix
  import Heads

  /** What the constructor fixes: widths, heads, and the layer position. */
  datatype Dims = Dims(nEmbd: nat, dimAtt: nat, headSize: nat, nHead: nat, layerIdx: nat, nLayer: nat)

  /** The integer part `(n + 1) % 3 - 1` of the zigzag term of `time_faaaa`. */
  function Zigzag(n: nat): (z: int)
    ensures n % 3 == 0 ==> z == 0
    ensures n % 3 == 1 ==> z == 1
    ensures n % 3 == 2 ==> z == -1
  {
    (n + 1) % 3 - 1
  }

  /** The zigzag factor cycles with period 3 and sums to zero over any
      three consecutive channels. */
  lemma ZigzagCycles(n: nat)
    ensures Zigzag(n + 3) == Zigzag(n)
    ensures Zigzag(n) + Zigzag(n + 1) + Zigzag(n + 2) == 0
  {
  }

  /** The constructor: head count and its assertion, the two layer ratios
      (`layer_idx / (n_layer - 1)` and `layer_idx / n_layer` divide by zero
      for one and for no layers), and the reshape of `time_faaaa` to
      `(n_head, head_size)`, which fails unless the heads tile the width. */
  function Init(dModel: nat, layerIdx: nat, nLayer: nat): (r: Result<Dims>)
    ensures r.Ok? <==> dModel >= Heads.HEAD_SIZE && dModel % Heads.HEAD_SIZE == 0 && nLayer >= 2
    ensures dModel < Heads.HEAD_SIZE ==> r == Raise(ZeroDivisionError)
    ensures Heads.HeadCountAsWritten(dModel).Raise? ==> r == Raise(Heads.HeadCountAsWritten(dModel).error)
    ensures Heads.HeadCountAsWritten(dModel).Ok? && nLayer < 2 ==> r == Raise(ZeroDivisionError)
    ensures Heads.HeadCountAsWritten(dModel).Ok? && nLayer >= 2 && dModel % Heads.HEAD_SIZE != 0 ==>
              r == Raise(RuntimeError)
    ensures r.Ok? ==> r.value.nHead * r.value.headSize == r.value.dimAtt == r.value.nEmbd == dModel
    ensures r.Ok? ==> r.value.headSize == Heads.HEAD_SIZE && r.value.nHead >= 1
  {
    var nHead :- Heads.HeadCountAsWritten(dModel);
    :- Need(nLayer != 1, ZeroDivisionError);
    :- Need(nLayer != 0, ZeroDivisionError);
    :- Need(nHead * Heads.HEAD_SIZE == dModel, RuntimeError);
    AlignedPassesAssertion(dModel);
    Ok(Dims(dModel, dModel, Heads.HEAD_SIZE, nHead, layerIdx, nLayer))
  }

  /** The constructor as a whole accepts exactly the widths the intended
      head-size check accepts (above zero): the reshape of `time_faaaa`
      rejects what the written assertion lets through. */
  lemma InitAcceptsIntendedWidths(dModel: nat, layerIdx: nat, nLayer: nat)
    requires nLayer >= 2 && dModel > 0
    ensures Init(dModel, layerIdx, nLayer).Ok? <==> Heads.HeadCount(dModel).Ok?
    ensures Init(dModel, layerIdx, nLayer).Ok? ==>
              Init(dModel, layerIdx, nLayer).value.nHead == Heads.HeadCount(dModel).value
  {
  }

  lemma AlignedPassesAssertion(dModel: nat)
    ensures dModel >= Heads.HEAD_SIZE && dModel % Heads.HEAD_SIZE == 0 ==>
              Heads.HeadCountAsWritten(dModel).Ok?
  {
    if dModel >= Heads.HEAD_SIZE && dModel % Heads.HEAD_SIZE == 0 {
      var n := dModel / Heads.HEAD_SIZE;
      assert dModel == n * Heads.HEAD_SIZE;
      Heads.AsWrittenAgreesOnAlignedWidths(n);
    }
  }

  /** What `RUN_CUDA_RWKV6` receives besides the projections `r, k, v, w`:
      the sizes, the bonus `u` and the state buffer `s`. */
  datatype KernelCall<W> = KernelCall(T: nat, C: nat, H: nat, u: seq<Vec>, s: W)

  /** One `forward` call: the shift delta, the kernel call and its output,
      and the state handed to the next call. */
  datatype Step<W, Y> = Step(dxprev: seq<Vec>, call: KernelCall<W>, y: Y, next: TimeMixState<W>)

  /** The kernel call `forward` makes on `T` steps of `width` channels from
      kernel state `s`: with `use_v2 = 1` the bonus `u` is
      `zeros_like(time_faaaa)`, an `n_head x head_size` block of zeros. */
  function CallFor<W>(dims: Dims, T: nat, width: nat, s: W): (c: KernelCall<W>)
    ensures c.T == T && c.C == width && c.H == dims.nHead && c.s == s
    ensures |c.u| == dims.nHead && Rows(c.u, dims.headSize)
    ensures forall h, j :: 0 <= h < dims.nHead && 0 <= j < dims.headSize ==> c.u[h][j] == 0.0
  {
    KernelCall(T, width, dims.nHead, Zeros(dims.nHead, dims.headSize), s)
  }

  /** `forward` on one batch element `x` of `width` channels. `kernel`
      stands for `RUN_CUDA_RWKV6`: it either raises or returns the output
      and what it leaves in the state buffer it was given (a clone of the
      incoming kernel state). `x[:, -1]` raises on an empty sequence; the
      concatenation with the shift state and the first projection raise
      unless the widths match; after that, `forward` raises exactly when
      the kernel does. */
  function Forward<W, Y>(dims: Dims, x: seq<Vec>, width: nat, last: TimeMixState<W>,
                         kernel: KernelCall<W> -> Result<(Y, W)>): (r: Result<Step<W, Y>>)
    requires Rows(x, width)
    ensures |x| == 0 ==> r == Raise(IndexError)
    ensures |x| > 0 && (|last.shiftState| != width || width != dims.nEmbd) ==> r == Raise(RuntimeError)
    ensures r.Ok? <==> |x| > 0 && |last.shiftState| == width && width == dims.nEmbd
                       && kernel(CallFor(dims, |x|, width, last.wkvState)).Ok?
    ensures |x| > 0 && |last.shiftState| == width && width == dims.nEmbd && r.Raise? ==>
              r.error == kernel(CallFor(dims, |x|, width, last.wkvState)).error
    ensures r.Ok? ==> r.value.dxprev == ShiftDelta(last.shiftState, x, width)
    ensures r.Ok? ==> r.value.next.shiftState == x[|x| - 1]
    ensures r.Ok? ==> r.value.call == CallFor(dims, |x|, width, last.wkvState)
    ensures r.Ok? ==> kernel(r.value.call) == Ok((r.value.y, r.value.next.wkvState))
  {
    if |x| == 0 then Raise(IndexError) else
    :- Need(|last.shiftState| == width, RuntimeError);
    :- Need(width == dims.nEmbd, RuntimeError);
    var shiftState := x[|x| - 1];
    var dxprev := ShiftDelta(last.shiftState, x, width);
    var call := CallFor(dims, |x|, width, last.wkvState);
    var out :- kernel(call);
    Ok(Step(dxprev, call, out.0, TimeMixState(out.1, shiftState)))
  }

  /** Chunked processing: when `forward` on `a`, then on `b` with the state
      it returned, and on `a + b` all get through the kernel, the two calls
      see the same shift deltas as the one call and end with the same
      shift state. */
  lemma ForwardChunked<W, Y>(dims: Dims, a: seq<Vec>, b: seq<Vec>, width: nat,
                             last: TimeMixState<W>, kernel: KernelCall<W> -> Result<(Y, W)>)
    requires Rows(a, width) && Rows(b, width)
    ensures Rows(a + b, width)
    ensures Forward(dims, a, width, last, kernel).Ok?
            && Forward(dims, b, width, Forward(dims, a, width, last, kernel).value.next, kernel).Ok?
            && Forward(dims, a + b, width, last, kernel).Ok? ==>
              && Forward(dims, a, width, last, kernel).value.dxprev
                 + Forward(dims, b, width, Forward(dims, a, width, last, kernel).value.next, kernel).value.dxprev
                 == Forward(dims, a + b, width, last, kernel).value.dxprev
              && Forward(dims, b, width, Forward(dims, a, width, last, kernel).value.next, kernel).value.next.shiftState
                 == Forward(dims, a + b, width, last, kernel).value.next.shiftState
  {
    if Forward(dims, a, width, last, kernel).Ok? {
      var sa := Forward(dims, a, width, last, kernel).value;
      ShiftDeltaChunked(last.shiftState, a, b, width);
      assert sa.next.shiftState == Carry(last.shiftState, a);
      if |b| > 0 {
        assert (a + b)[|a + b| - 1] == b[|b| - 1];
      }
    }
  }
}

=== FILE: token_shift.dfy ===
/** The token-shift operators of the RWKV and GoldFinch time-mix layers.
    Each one builds, for a sequence `x` of time steps, the sequence of
    "previous positions": element `t` is `x[t-1]` for `t >= 1`; the
    operators differ only in what they put at position 0. The element type
    is generic: a time step may be a scalar or a whole channel vector. */
module TokenShift {
  import opened Tensors

  /** Everything but the last step: `x[:, :-1]`. */
  function DropLast<T>(x: seq<T>): seq<T> {
    if |x| == 0 then [] else x[..|x| - 1]
  }

  /** The carried shift `torch.concat((state.unsqueeze(1), x[:, :-1]), dim=1)`:
      the incoming shift state, then every step but the last. (On an empty
      sequence the layers raise before this is used; here it is empty.) */
  function Shift<T>(state: T, x: seq<T>): (r: seq<T>)
    ensures |r| == |x|
    ensures |x| > 0 ==> r[0] == state
    ensures forall t :: 1 <= t < |x| ==> r[t] == x[t - 1]
  {
    if |x| == 0 then [] else [state] + DropLast(x)
  }

  /** The shift state left after consuming `x`: its last step, or the
      incoming state when `x` is empty. The layers return `x[:, -1]`, which
      is this value whenever `x` is not empty. */
  function Carry<T>(state: T, x: seq<T>): (s: T)
    ensures |x| > 0 ==> s == x[|x| - 1]
    ensures |x| == 0 ==> s == state
  {
    if |x| == 0 then state else x[|x| - 1]
  }

  /** `nn.ZeroPad2d((0, 0, 1, -1))` on the time axis: pad one zero step in
      front, crop one step off the end. */
  function ZeroPadShift<T>(zero: T, x: seq<T>): (r: seq<T>)
    ensures |r| == |x|
    ensures |x| > 0 ==> r[0] == zero
    ensures forall t :: 1 <= t < |x| ==> r[t] == x[t - 1]
  {
    ([zero] + x)[..|x|]
  }

  /** `shift_cat`: `torch.cat([x[:, :1], x[:, :-1]], dim=1)`, which repeats
      the first step in place of a predecessor. */
  function ShiftCat<T>(x: seq<T>): (r: seq<T>)
    ensures |r| == |x|
    ensures |x| > 0 ==> r[0] == x[0]
    ensures forall t :: 1 <= t < |x| ==> r[t] == x[t - 1]
  {
    (if |x| == 0 then [] else x[..1]) + DropLast(x)
  }

  /** Step-by-step evaluation, as incremental inference would run it: emit
      the carried state, then make the current step the new state. */
  function ShiftStepwise<T>(state: T, x: seq<T>): seq<T>
  {
    if |x| == 0 then [] else [state] + ShiftStepwise(x[0], x[1..])
  }

  /** The whole-sequence shift and the step-by-step shift agree. */
  lemma {:induction false} ShiftStepwiseAgrees<T>(state: T, x: seq<T>)
    ensures ShiftStepwise(state, x) == Shift(state, x)
    decreases |x|
  {
    if |x| > 0 {
      ShiftStepwiseAgrees(x[0], x[1..]);
      var s := Shift(state, x);
      var s' := Shift(x[0], x[1..]);
      assert s == [state] + s' by {
        forall t | 0 <= t < |x|
          ensures s[t] == ([state] + s')[t]
        {
          if t >= 2 {
            assert s'[t - 1] == x[1..][t - 2];
          }
        }
      }
    }
  }

  /** Chunked processing: shifting `a` and then `b` from the state `a`
      leaves behind is shifting `a + b` in one go, and the final states agree. */
  lemma ShiftChunked<T>(state: T, a: seq<T>, b: seq<T>)
    ensures Shift(state, a + b) == Shift(state, a) + Shift(Carry(state, a), b)
    ensures Carry(Carry(state, a), b) == Carry(state, a + b)
  {
    var whole := Shift(state, a + b);
    var parts := Shift(state, a) + Shift(Carry(state, a), b);
    forall t | 0 <= t < |a + b|
      ensures whole[t] == parts[t]
    {
      if t == |a| && t > 0 {
        assert parts[t] == Carry(state, a);
      }
    }
  }

  /** The zero-padded shift is the carried shift started from a zero state. */
  lemma ZeroPadIsShiftFromZero<T>(zero: T, x: seq<T>)
    ensures ZeroPadShift(zero, x) == Shift(zero, x)
  {
  }

  /** `shift_cat` is the carried shift started from the first step. */
  lemma ShiftCatIsShiftFromFirst<T>(x: seq<T>)
    requires |x| > 0
    ensures ShiftCat(x) == Shift(x[0], x)
  {
  }

  /** The carried shift and the zero-padded shift agree at every position
      but 0, where one holds the carried state and the other the zero. */
  lemma CarriedAndZeroPadDifferOnlyAtStart<T>(state: T, zero: T, x: seq<T>)
    ensures forall t :: 0 < t < |x| ==> Shift(state, x)[t] == ZeroPadShift(zero, x)[t]
    ensures |x| > 0 ==> Shift(state, x)[0] == state && ZeroPadShift(zero, x)[0] == zero
    ensures state == zero ==> Shift(state, x) == ZeroPadShift(zero, x)
  {
  }

  /** `shifted - x`, one row per step: the `dxprev` of the time-mix layers. */
  function Delta(shifted: seq<Vec>, x: seq<Vec>): (d: seq<Vec>)
    requires |shifted| == |x|
    requires forall t :: 0 <= t < |x| ==> |shifted[t]| == |x[t]|
    ensures |d| == |x|
    ensures forall t :: 0 <= t < |x| ==> |d[t]| == |x[t]|
    ensures forall t, c :: 0 <= t < |x| && 0 <= c < |x[t]| ==> d[t][c] + x[t][c] == shifted[t][c]
  {
    seq(|x|, t requires 0 <= t < |x| => Sub(shifted[t], x[t]))
  }

  /** `dxprev = concat((state, x[:-1])) - x` for a sequence of channel rows
      of width `width`. */
  function ShiftDelta(state: Vec, x: seq<Vec>, width: nat): (d: seq<Vec>)
    requires |state| == width && Rows(x, width)
    ensures |d| == |x| && Rows(d, width)
    ensures |x| > 0 ==> forall c :: 0 <= c < width ==> d[0][c] == state[c] - x[0][c]
    ensures forall t, c :: 1 <= t < |x| && 0 <= c < width ==> d[t][c] == x[t - 1][c] - x[t][c]
  {
    Delta(Shift(state, x), x)
  }

  /** `time_shift(x) - x` for a sequence of channel rows of width `width`. */
  function ZeroPadDelta(x: seq<Vec>, width: nat): (d: seq<Vec>)
    requires Rows(x, width)
    ensures |d| == |x| && Rows(d, width)
    ensures |x| > 0 ==> forall c :: 0 <= c < width ==> d[0][c] == -x[0][c]
    ensures forall t, c :: 1 <= t < |x| && 0 <= c < width ==> d[t][c] == x[t - 1][c] - x[t][c]
  {
    Delta(ZeroPadShift(seq(width, _ => 0.0), x), x)
  }

  /** Row-wise subtraction splits along a split of the time axis. */
  lemma DeltaAppend(s1: seq<Vec>, x1: seq<Vec>, s2: seq<Vec>, x2: seq<Vec>)
    requires |s1| == |x1| && |s2| == |x2|
    requires forall t :: 0 <= t < |x1| ==> |s1[t]| == |x1[t]|
    requires forall t :: 0 <= t < |x2| ==> |s2[t]| == |x2[t]|
    ensures forall t :: 0 <= t < |x1 + x2| ==> |(s1 + s2)[t]| == |(x1 + x2)[t]|
    ensures Delta(s1 + s2, x1 + x2) == Delta(s1, x1) + Delta(s2, x2)
  {
    assert forall t :: 0 <= t < |x1 + x2| ==> |(s1 + s2)[t]| == |(x1 + x2)[t]| by {
      forall t | 0 <= t < |x1 + x2|
        ensures |(s1 + s2)[t]| == |(x1 + x2)[t]|
      {
        if t >= |x1| {
          assert (s1 + s2)[t] == s2[t - |x1|] && (x1 + x2)[t] == x2[t - |x1|];
        }
      }
    }
  }

  /** The delta is chunk-consistent too: the deltas of `a` and of `b` (from
      the state `a` leaves behind) concatenate to the delta of `a + b`. */
  lemma ShiftDeltaChunked(state: Vec, a: seq<Vec>, b: seq<Vec>, width: nat)
    requires |state| == width && Rows(a, width) && Rows(b, width)
    ensures Rows(a + b, width) && |Carry(state, a)| == width
    ensures ShiftDelta(state, a + b, width)
         == ShiftDelta(state, a, width) + ShiftDelta(Carry(state, a), b, width)
  {
    assert Rows(a + b, width) by {
      forall t | 0 <= t < |a + b|
        ensures |(a + b)[t]| == width
      {
        if t >= |a| {
          assert (a + b)[t] == b[t - |a|];
        }
      }
    }
    ShiftChunked(state, a, b);
    DeltaAppend(Shift(state, a), a, Shift(Carry(state, a), b), b);
  }
}

=== FILE: transformer_block.dfy ===
/** `TransformerBlock`: which sequence mixer a layer is built with, and how
    `forward` fills in its optional arguments and passes the k-cache on.
    Dropout, stochastic depth, the norms and the mixers' numerics are one
    abstract function `mix`. */
module TransformerBlock {
  import opened Errors

  /** `first_cache_once_layer_id`: all layers when there is no second
      mixer, else `2 * n_layers // 3`. */
  function CacheOnceLayer(nLayers: nat, hasMixer2: bool): (r: nat)
    ensures r <= nLayers
    ensures !hasMixer2 ==> r == nLayers
    ensures hasMixer2 ==> 3 * r <= 2 * nLayers < 3 * r + 3
  {
    if !hasMixer2 then nLayers else 2 * nLayers / 3
  }

  /** The mixer class layer `layerIdx` instantiates: `sequence_mixer` below
      the threshold, `sequence_mixer2` from it on. Instantiating an absent
      `sequence_mixer2` fails with `AttributeError` on `None`. */
  function SelectMixer<M>(layerIdx: nat, nLayers: nat, mixer: M, mixer2: Option<M>): (r: Result<M>)
    ensures layerIdx < nLayers ==> r.Ok?
    ensures layerIdx < CacheOnceLayer(nLayers, mixer2.Some?) ==> r == Ok(mixer)
    ensures mixer2.Some? && layerIdx >= CacheOnceLayer(nLayers, mixer2.Some?) ==> r == Ok(mixer2.value)
  {
    if layerIdx < CacheOnceLayer(nLayers, mixer2.Some?) then Ok(mixer)
    else if mixer2.Some? then Ok(mixer2.value)
    else Raise(AttributeError)
  }

  /** The mixers of all `n_layers` blocks, as the backbone builds them. */
  function LayerMixers<M>(nLayers: nat, mixer: M, mixer2: Option<M>): (ms: seq<M>)
    ensures |ms| == nLayers
    ensures forall i :: 0 <= i < nLayers ==> SelectMixer(i, nLayers, mixer, mixer2) == Ok(ms[i])
  {
    seq(nLayers, i requires 0 <= i < nLayers => SelectMixer(i, nLayers, mixer, mixer2).value)
  }

  /** With a second mixer the layers split into a prefix of `2n // 3`
      first-mixer layers and a non-empty suffix of at least a third of the
      layers using the second; without one, every layer uses the first. */
  lemma MixerLayout<M>(nLayers: nat, mixer: M, mixer2: Option<M>)
    ensures mixer2.None? ==> forall i :: 0 <= i < nLayers ==> LayerMixers(nLayers, mixer, mixer2)[i] == mixer
    ensures mixer2.Some? && nLayers >= 1 ==>
              var t := CacheOnceLayer(nLayers, true);
              && t < nLayers
              && 3 * (nLayers - t) >= nLayers
              && (forall i :: 0 <= i < t ==> LayerMixers(nLayers, mixer, mixer2)[i] == mixer)
              && (forall i :: t <= i < nLayers ==> LayerMixers(nLayers, mixer, mixer2)[i] == mixer2.value)
  {
  }

  /** What a block returns: hidden states, residual, k-cache, mixer state. */
  datatype BlockOut<H, K, S> = BlockOut(hidden: H, residual: H, kCache: K, state: S)

  /** `TransformerBlock.forward`. A missing `xo` defaults to the hidden
      states, a missing k-cache to zeros like them, and a missing mixer
      state to the zero `TimeMixState`. Building that zero state indexes
      `hidden_states[:, -1]`, so `zeroState` may raise (on an empty
      sequence); it is evaluated only when no state was passed. `mix` is
      the block's numerics around its sequence mixer and raises when the
      mixer does. The k-cache comes back out exactly as it went in. */
  function Forward<H, K, S>(mix: (H, Option<H>, H, K, S) -> Result<(H, H, S)>,
                            zeroCache: H -> K, zeroState: H -> Result<S>,
                            hidden: H, residual: Option<H>, xo: Option<H>,
                            kCache: Option<K>, state: Option<S>): (r: Result<BlockOut<H, K, S>>)
    ensures state.None? && zeroState(hidden).Raise? ==> r == Raise(zeroState(hidden).error)
    ensures state.Some? || zeroState(hidden).Ok? ==>
              var k := if kCache.Some? then kCache.value else zeroCache(hidden);
              var s := if state.Some? then state.value else zeroState(hidden).value;
              var m := mix(hidden, residual, xo.GetOr(hidden), k, s);
              && (r.Ok? <==> m.Ok?)
              && (r.Raise? ==> r.error == m.error)
              && (r.Ok? ==> r.value.kCache == k && (r.value.hidden, r.value.residual, r.value.state) == m.value)
  {
    var x := xo.GetOr(hidden);
    var k := kCache.GetOr(zeroCache(hidden));
    var s :- if state.Some? then Ok(state.value) else zeroState(hidden);
    var out :- mix(hidden, residual, x, k, s);
    Ok(BlockOut(out.0, out.1, k, out.2))
  }

  /** A caller that supplies `xo`, the k-cache and the state, as the
      backbone always does, never reaches the defaults: the result does not
      depend on `zeroCache` or `zeroState`, and the block fails only when
      its mixer does. */
  lemma SuppliedArgumentsBypassDefaults<H, K, S>(mix: (H, Option<H>, H, K, S) -> Result<(H, H, S)>,
                                                 zeroCache: H -> K, zeroState: H -> Result<S>,
                                                 otherCache: H -> K, otherState: H -> Result<S>,
                                                 hidden: H, residual: Option<H>, xo: H, kCache: K, state: S)
    ensures Forward(mix, zeroCache, zeroState, hidden, residual, Some(xo), Some(kCache), Some(state))
         == Forward(mix, otherCache, otherState, hidden, residual, Some(xo), Some(kCache), Some(state))
    ensures Forward(mix, zeroCache, zeroState, hidden, residual, Some(xo), Some(kCache), Some(state)).Ok?
        <==> mix(hidden, residual, xo, kCache, state).Ok?
  {
  }
}

=== FILE: wkv6.dfy ===
/** The `WKV_6` autograd function: the checks its `forward` makes before
    launching the CUDA kernel, the dtype dispatch, and the shape of what its
    `backward` returns. Tensors are described by their metadata; the kernel
    itself is a function parameter whose results are left uninterpreted. */
module Wkv6 {
  import opened Errors
  import opened Tensors
  import PyInt

  /** `HEAD_SIZE = int(os.environ["RWKV_HEAD_SIZE_A"])`, set to "64" just before. */
  const HEAD_SIZE: nat := 64

  datatype DType = BFloat16 | Float16 | Float32 | Float64 | OtherDType(name: string)

  /** A tensor's dtype, shape and whether it is contiguous. */
  datatype Meta = Meta(dtype: DType, shape: seq<nat>, contiguous: bool)

  /** The three compiled kernel entry points (`forward_bf16`, ... or
      `backward_bf16`, ...). */
  datatype Entry = BF16 | FP16 | FP32

  /** The arguments of `WKV_6.forward(ctx, B, T, C, H, r, k, v, w, u, s)`. */
  datatype Args = Args(B: nat, T: nat, C: nat, H: nat,
                       r: Meta, k: Meta, v: Meta, w: Meta, u: Meta, s: Meta)
  {
    predicate SameDType() {
      k.dtype == r.dtype && v.dtype == r.dtype && w.dtype == r.dtype
      && u.dtype == r.dtype && s.dtype == r.dtype
    }

    predicate AllContiguous() {
      r.contiguous && k.contiguous && v.contiguous && w.contiguous && u.contiguous && s.contiguous
    }
  }

  /** What `forward` stores on `ctx` for `backward`. */
  datatype Ctx = Ctx(B: nat, T: nat, C: nat, H: nat, dtype: DType, saved: seq<Meta>)

  datatype ForwardOut<Y> = ForwardOut(y: Meta, entry: Entry, values: Y, ctx: Ctx)

  /** The dtype dispatch: one entry point per supported dtype, and
      `ValueError` for any other. */
  function Dispatch(dtype: DType): (r: Result<Entry>)
    ensures r == Ok(BF16) <==> dtype == BFloat16
    ensures r == Ok(FP16) <==> dtype == Float16
    ensures r == Ok(FP32) <==> dtype == Float32
    ensures r.Raise? <==> dtype !in {BFloat16, Float16, Float32}
    ensures r.Raise? ==> r.error == ValueError
  {
    match dtype
    case BFloat16 => Ok(BF16)
    case Float16 => Ok(FP16)
    case Float32 => Ok(FP32)
    case _ => Raise(ValueError)
  }

  /** The dtype assertions. The first one, `r.dtype == dtype`, compares `r`
      with itself and cannot fail, so it is left out. */
  function CheckDTypes(a: Args): (o: Result<()>)
    ensures o.Ok? <==> a.SameDType()
    ensures o.Raise? ==> o.error == AssertionError
  {
    if a.k.dtype != a.r.dtype then Raise(AssertionError) else
    :- Need(a.v.dtype == a.r.dtype, AssertionError);
    :- Need(a.w.dtype == a.r.dtype, AssertionError);
    :- Need(a.u.dtype == a.r.dtype, AssertionError);
    :- Need(a.s.dtype == a.r.dtype, AssertionError);
    Ok(())
  }

  /** `assert HEAD_SIZE == C // H`, as written. */
  function CheckHeadSizeAsWritten(C: nat, H: nat): (o: Result<()>)
    ensures o.Ok? <==> H > 0 && H * HEAD_SIZE <= C < H * HEAD_SIZE + H
    ensures o.Raise? ==> o.error == (if H == 0 then ZeroDivisionError else AssertionError)
  {
    var q :- PyInt.FloorDiv(C, H);
    :- Need(HEAD_SIZE == q, AssertionError);
    Ok(())
  }

  /** The head-size check as evidently intended: the `H` heads of
      `HEAD_SIZE` channels tile the `C` channels exactly. */
  function CheckHeadSize(C: nat, H: nat): (o: Result<()>)
    ensures o.Ok? <==> H > 0 && C == H * HEAD_SIZE
    ensures o.Raise? ==> o.error == AssertionError
  {
    if H == 0 || C != H * HEAD_SIZE then Raise(AssertionError) else
    Ok(())
  }

  /** Everything `forward` does after the head-size check: the contiguity
      assertions, saving the context, allocating `y` of shape `(B, T, C)` in
      the input dtype, and the dispatch to the kernel. */
  function Launch<Y>(a: Args, kernel: (Entry, Args) -> Y): (res: Result<ForwardOut<Y>>)
    ensures res.Ok? <==> a.AllContiguous() && a.r.dtype in {BFloat16, Float16, Float32}
    ensures !a.AllContiguous() ==> res == Raise(AssertionError)
    ensures a.AllContiguous() && res.Raise? ==> res.error == ValueError
    ensures res.Ok? ==> res.value.y == Meta(a.r.dtype, [a.B, a.T, a.C], true)
    ensures res.Ok? ==> Dispatch(a.r.dtype) == Ok(res.value.entry)
    ensures res.Ok? ==> res.value.values == kernel(res.value.entry, a)
    ensures res.Ok? ==> res.value.ctx == Ctx(a.B, a.T, a.C, a.H, a.r.dtype, [a.r, a.k, a.v, a.w, a.u])
  {
    if !a.r.contiguous then Raise(AssertionError) else
    :- Need(a.k.contiguous, AssertionError);
    :- Need(a.v.contiguous, AssertionError);
    :- Need(a.w.contiguous, AssertionError);
    :- Need(a.u.contiguous, AssertionError);
    :- Need(a.s.contiguous, AssertionError);
    var ctx := Ctx(a.B, a.T, a.C, a.H, a.r.dtype, [a.r, a.k, a.v, a.w, a.u]);
    var y := Meta(a.r.dtype, [a.B, a.T, a.C], true);
    var entry :- Dispatch(a.r.dtype);
    Ok(ForwardOut(y, entry, kernel(entry, a), ctx))
  }

  /** `WKV_6.forward` as written. */
  function Forward<Y>(a: Args, kernel: (Entry, Args) -> Y): (res: Result<ForwardOut<Y>>)
    ensures res.Ok? <==> a.SameDType() && a.H > 0 && a.H * HEAD_SIZE <= a.C < a.H * HEAD_SIZE + a.H
                         && a.AllContiguous() && a.r.dtype in {BFloat16, Float16, Float32}
    ensures res.Raise? ==> res.error in {AssertionError, ZeroDivisionError, ValueError}
    ensures !a.SameDType() ==> res == Raise(AssertionError)
    ensures a.SameDType() && a.H == 0 ==> res == Raise(ZeroDivisionError)
    ensures a.SameDType() && a.H > 0 && a.C / a.H != HEAD_SIZE ==> res == Raise(AssertionError)
    ensures a.SameDType() && a.H > 0 && a.C / a.H == HEAD_SIZE && !a.AllContiguous() ==> res == Raise(AssertionError)
    ensures res.Raise? && res.error == ValueError <==>
              a.SameDType() && a.H > 0 && a.C / a.H == HEAD_SIZE && a.AllContiguous()
              && a.r.dtype !in {BFloat16, Float16, Float32}
    ensures res.Ok? ==> res.value.y == Meta(a.r.dtype, [a.B, a.T, a.C], true)
    ensures res.Ok? ==> Dispatch(a.r.dtype) == Ok(res.value.entry)
    ensures res.Ok? ==> res.value.ctx == Ctx(a.B, a.T, a.C, a.H, a.r.dtype, [a.r, a.k, a.v, a.w, a.u])
    ensures res.Ok? ==> res.value.values == kernel(res.value.entry, a)
  {
    var _ :- CheckDTypes(a);
    var _ :- CheckHeadSizeAsWritten(a.C, a.H);
    Launch(a, kernel)
  }

  /** `WKV_6.forward` with the intended head-size check. */
  function ForwardIntended<Y>(a: Args, kernel: (Entry, Args) -> Y): (res: Result<ForwardOut<Y>>)
    ensures res.Ok? <==> a.SameDType() && a.H > 0 && a.C == a.H * HEAD_SIZE
                         && a.AllContiguous() && a.r.dtype in {BFloat16, Float16, Float32}
    ensures res.Raise? ==> res.error in {AssertionError, ValueError}
    ensures a.SameDType() && a.H > 0 && a.C == a.H * HEAD_SIZE && a.AllContiguous() && res.Raise? ==>
              res.error == ValueError
    ensures res.Ok? ==> res.value.y == Meta(a.r.dtype, [a.B, a.T, a.C], true)
    ensures res.Ok? ==> Dispatch(a.r.dtype) == Ok(res.value.entry)
    ensures res.Ok? ==> res.value.ctx == Ctx(a.B, a.T, a.C, a.H, a.r.dtype, [a.r, a.k, a.v, a.w, a.u])
    ensures res.Ok? ==> res.value.values == kernel(res.value.entry, a)
  {
    var _ :- CheckDTypes(a);
    var _ :- CheckHeadSize(a.C, a.H);
    Launch(a, kernel)
  }

  /** What `backward` returns: one slot per `forward` argument (`B, T, C,
      H, r, k, v, w, u, s`), and the values of the bonus gradient. */
  datatype BackwardOut = BackwardOut(grads: seq<Option<Meta>>, gu: seq<Vec>)

  /** The per-batch bonus gradient `(B, C)` the kernel writes. */
  function GuMatrix(ctx: Ctx, entry: Entry, guKernel: (Entry, nat, nat) -> real): (m: seq<Vec>)
    ensures |m| == ctx.B && Rows(m, ctx.C)
  {
    seq(ctx.B, b requires 0 <= b < ctx.B =>
      seq(ctx.C, c requires 0 <= c < ctx.C => guKernel(entry, b, c)))
  }

  /** `WKV_6.backward`. `gy.float()` always yields float32, so the
      assertion that it has the saved dtype passes only when `forward` ran
      in float32, and the dispatch then always takes the fp32 entry. The
      kernel's per-batch bonus gradient `guKernel` is summed over the batch
      and viewed as `(H, C // H)`, which fails unless the heads tile `C`. */
  function Backward(ctx: Ctx, gy: Meta, guKernel: (Entry, nat, nat) -> real): (res: Result<BackwardOut>)
    ensures res.Ok? <==> ctx.dtype == Float32 && ctx.H > 0 && ctx.C % ctx.H == 0
    ensures ctx.dtype != Float32 ==> res == Raise(AssertionError)
    ensures ctx.dtype == Float32 && ctx.H == 0 ==> res == Raise(ZeroDivisionError)
    ensures ctx.dtype == Float32 && ctx.H > 0 && ctx.C % ctx.H != 0 ==> res == Raise(RuntimeError)
    ensures res.Ok? ==> |res.value.grads| == 10
    ensures res.Ok? ==> forall i :: 0 <= i < 10 ==> (res.value.grads[i].Some? <==> 4 <= i <= 8)
    ensures res.Ok? ==> forall i :: 4 <= i < 8 ==>
              res.value.grads[i] == Some(Meta(Float32, [ctx.B, ctx.T, ctx.C], true))
    ensures res.Ok? ==> res.value.grads[8] == Some(Meta(Float32, [ctx.H, ctx.C / ctx.H], true))
    ensures res.Ok? ==> |res.value.gu| == ctx.H && Rows(res.value.gu, ctx.C / ctx.H)
  {
    var gyDType := Float32;
    :- Need(gyDType == ctx.dtype, AssertionError);
    // Past the assertion the dtype is float32: the dispatch cannot take its
    // bf16, fp16 or `ValueError` branches.
    var entry := Dispatch(ctx.dtype).value;
    :- Need(ctx.H != 0, ZeroDivisionError);
    var width := ctx.C / ctx.H;
    var summed := SumAxis0(GuMatrix(ctx, entry, guKernel), ctx.C);
    var gu :- Reshape(summed, ctx.H, width);
    var g := Meta(Float32, [ctx.B, ctx.T, ctx.C], true);
    Ok(BackwardOut([None, None, None, None, Some(g), Some(g), Some(g), Some(g),
                    Some(Meta(Float32, [ctx.H, width], true)), None], gu))
  }

  /** `backward` always runs the fp32 kernel entry, whatever `forward` used. */
  lemma BackwardRunsFp32Only(ctx: Ctx, gy: Meta, guKernel: (Entry, nat, nat) -> real)
    requires Backward(ctx, gy, guKernel).Ok?
    ensures ctx.dtype == Float32 && Dispatch(ctx.dtype) == Ok(FP32)
  {
  }

  /** The bonus gradient is the kernel's per-batch gradient summed over the
      batch: entry `(h, j)` is the batch sum at channel `h * (C // H) + j`. */
  lemma BackwardBonusIsBatchSum(ctx: Ctx, gy: Meta, guKernel: (Entry, nat, nat) -> real, h: nat, j: nat)
    requires Backward(ctx, gy, guKernel).Ok?
    requires h < ctx.H && j < ctx.C / ctx.H
    ensures h * (ctx.C / ctx.H) + j < ctx.C
    ensures Backward(ctx, gy, guKernel).value.gu[h][j]
         == ColumnSum(GuMatrix(ctx, FP32, guKernel), h * (ctx.C / ctx.H) + j)
  {
    var width := ctx.C / ctx.H;
    var summed := SumAxis0(GuMatrix(ctx, FP32, guKernel), ctx.C);
    assert ctx.C == ctx.H * width;
    ReshapeIndex(summed, ctx.H, width, h, j);
  }

  /** Forward and backward together: after a successful `forward`,
      `backward` succeeds exactly when the forward ran in float32 and the
      heads tile the channels exactly. */
  lemma BackwardAfterForward<Y>(a: Args, kernel: (Entry, Args) -> Y, gy: Meta,
                                guKernel: (Entry, nat, nat) -> real)
    requires Forward(a, kernel).Ok?
    ensures Backward(Forward(a, kernel).value.ctx, gy, guKernel).Ok?
        <==> a.r.dtype == Float32 && a.C == a.H * HEAD_SIZE
  {
    var ctx := Forward(a, kernel).value.ctx;
    assert ctx.C == a.C && ctx.H == a.H && ctx.dtype == a.r.dtype;
    FloorWidthIsHeadSize(a.C, a.H);
  }

  /** Under `C // H == HEAD_SIZE`, the heads tile `C` exactly when `C == H * HEAD_SIZE`. */
  lemma FloorWidthIsHeadSize(C: nat, H: nat)
    requires H > 0 && H * HEAD_SIZE <= C < H * HEAD_SIZE + H
    ensures C / H == HEAD_SIZE
    ensures C % H == 0 <==> C == H * HEAD_SIZE
  {
    PyInt.DivModUnique(C, H, HEAD_SIZE, C - H * HEAD_SIZE);
  }

  /** The written head-size check admits 129 channels in 2 heads: `forward`
      succeeds and the matching `backward` fails in its `view`. */
  lemma ForwardAdmitsPartialHead<Y>(kernel: (Entry, Args) -> Y, gy: Meta,
                                    guKernel: (Entry, nat, nat) -> real)
    ensures var m := Meta(Float32, [], true);
            var a := Args(1, 1, 129, 2, m, m, m, m, m, m);
            && Forward(a, kernel).Ok?
            && Backward(Forward(a, kernel).value.ctx, gy, guKernel) == Raise(RuntimeError)
  {
  }

  /** With the intended check a successful float32 `forward` always has a
      successful `backward`. */
  lemma IntendedForwardBackwardAgree<Y>(a: Args, kernel: (Entry, Args) -> Y, gy: Meta,
                                        guKernel: (Entry, nat, nat) -> real)
    requires ForwardIntended(a, kernel).Ok?
    ensures Backward(ForwardIntended(a, kernel).value.ctx, gy, guKernel).Ok? <==> a.r.dtype == Float32
  {
    var ctx := ForwardIntended(a, kernel).value.ctx;
    assert ctx.C == a.H * HEAD_SIZE && ctx.H == a.H;
    PyInt.MulModZero(a.H, HEAD_SIZE);
    assert (a.H * HEAD_SIZE) % a.H == 0;
  }
}
